=== FILE: README.md ===
# Terminal RPG: combat, progression and quest rules in Dafny

This project models the rule logic of a single-file terminal role-playing
game (`Project_Beta.py`). The curses screen, key reads and sleeps are
dropped. What is left is a set of pure functions over small immutable
records:

- **Spawner** — monster construction. Species base stats plus level
  bonuses, then the rare elite mutation. The random level and the elite
  roll are parameters.
- **Progression** — `gain_xp`. A loop turns experience into levels, five
  skill points and a mana refill per level. It is written twice: as a
  recursion used by the other modules, and as the source's loop, proved
  equal.
- **Combat** — one turn of the battle loop:
  - key mapping;
  - the plain attack and its one-shot empower;
  - skill gating on level, mana and cooldown, and charging the costs;
  - the effect dispatch;
  - monster retaliation, the cooldown tick and mana regeneration.

  The battle is a fold of that step over a sequence of keys, one key per
  turn. A timeout is a key too.
- **Outcome** — a whole encounter. It covers the victory XP table with
  elite doubling, the defeat penalty `xp // 2`, the weapon lookup, and
  kill-quest progress.
- **Quests** — the NPC table and the NPC block of the main loop: class
  adoption, and a kill-quest reward followed by a reset. The NPC table is
  an explicit map passed in and returned.
- **SkillBook** — the per-class skill lists.
- **Menus** — stat upgrades, the wield toggle and the weighted monster
  pick of the mixed zone.

Errors the Python code raises become `Err` values of a `Result`:

- `ValueError` when the spawn level range is empty;
- `IndexError` for a wielded index outside the inventory, and for an
  empty pick list;
- `KeyError("completed")` when the player visits the merchant's gold
  quest.

Numbers are modelled this way:

- Integers are unbounded, as in Python.
- Skill powers and multipliers are exact `real`s.
- Python's `int()` on a float is `Basics.Trunc`, which rounds toward zero.
- Python's `//` and Dafny's `/` agree when the divisor is positive, which
  covers every use here (`level // 2` and `xp // 2`).

## Source quirks kept as written

The model follows the code. Where the code and its own comments differ,
the code wins. Each quirk has a lemma:

- **Skills never deal direct damage.** Fireball and Arcane Bolt carry the
  `damage_buff` effect. The effect check runs before the name checks, so
  their named damage branches never run. The same holds for every shipped
  skill. See `SkillBook.ShippedSkillsHaveEffects`,
  `SkillBook.ShippedSkillsDealNoDamage` and `SkillBook.FireballScenario`.
  A Fireball cast costs 8 mana, sets a cooldown of 7 and arms a ×1.5
  empower. The name branch at `Project_Beta.py:284-288`, which the comment
  at line 283 calls direct damage, would deal `attack + 5 − defense`; it is
  never reached.
- **Elite kills never advance kill quests.** Quests match the full monster
  name, prefix included. The XP lookup strips the prefix. See
  `Quests.EliteKillsNeverCount` and `Outcome.VictoryXpOfSpawn`.
- **The `reward_given` guard never fires.** The flag is written on the NPC
  record but read from the quest record. A reward is paid once per
  completion only because the quest is reset right after. See
  `Quests.RewardGuardNeverFires` and `Quests.RewardOncePerCompletion`.
- **A gold-quest NPC raises `KeyError`.** See `Quests.MerchantVisitRaises`.
- **Fallback attacks ignore the empower.** The "unknown skill" and
  "unavailable" attacks neither apply nor clear a pending multiplier. See
  `Combat.StepFallback`.
- **A timeout never repeats a skill.** Every branch resets `last_action` to
  `"attack"`, so the "repeat last action" input always repeats a plain
  attack. See `Combat.TimeoutNeverRepeatsSkill`.

## Model

| member | source | states |
|---|---|---|
| Basics.Trunc | Project_Beta.py:214 | `int()` on a float rounds toward zero: the result lies within one of the argument, on the zero side |
| Basics.ClampedTruncIsClampedFloor | Project_Beta.py:214 | under the `max(·, 1)` clamp, truncation and flooring give the same damage |
| Basics.DeleteAll | Project_Beta.py:325 | the deletion never lengthens the name. Its effect is stated by the two lemmas below only for a name without the pattern and for one that starts with it |
| Basics.DeleteAllAbsent | Project_Beta.py:325 | `replace("Elite ", "")` leaves a name without the prefix unchanged |
| Basics.DeleteAllPrefix | Project_Beta.py:325 | `replace` drops a leading "Elite " and goes on scanning the rest |
| Entities.NewGame | Project_Beta.py:112-134 | a new game starts from consistent stats: level 1, xp 0, no skill points, full mana, nothing wielded and no class. The inventory is one weapon with positive damage |
| Spawner.Build | Project_Beta.py:12-19 | a fresh monster keeps its name and level and is not elite. Each level adds 5 hp, 2 attack and 2 defense; speed rises by one every second level (`level // 2`) |
| Spawner.CreateMonster | Project_Beta.py:51-72 | a level-L monster has hp = base+5L, attack = base+2L, defense = base+2L and speed = base + L div 2. The elite roll doubles hp, attack and defense (not speed), prefixes "Elite " and sets the flag. An empty level range raises |
| Spawner.EliteDoublesPlain | Project_Beta.py:65-70 | an elite spawn equals the plain spawn of the same species and level with hp, attack and defense doubled, the same speed and level, and a prefixed name |
| Spawner.UnknownSpeciesIsGeneric | Project_Beta.py:62-63 | a name outside the species table spawns with base stats (15, 5, 2, 2) |
| Progression.Drain | Project_Beta.py:104-109 | the level-up loop ends below the threshold, adds 5 skill points per level, refills mana exactly when a level was gained, and consumes exactly the thresholds it passed |
| Progression.GainXp | Project_Beta.py:101-110 | after `gain_xp`, xp < level*10, and xp ≥ 0 whenever a level was gained, so the loop never overshoots. xp plus the consumed thresholds equals old xp plus the amount. Skill points rise by 5 per level. Mana is full if a level was gained, else unchanged. The result is true iff the level rose. No other stat changes |
| Progression.GainXpKeepsConsistent | Project_Beta.py:101-110 | a non-negative gain keeps level ≥ 1, 0 ≤ xp < level*10, mana within its maximum, and skill points ≥ 0 |
| Progression.GainNothingIsIdle | Project_Beta.py:683 | `gain_xp(stats, 0)` on consistent stats changes nothing and returns false |
| Progression.GainXpLoop | Project_Beta.py:101-110 | the while loop as written computes the same stats and flag as the recursion |
| Combat.Start | Project_Beta.py:178-189 | a battle starts from the stored hp and the monster's hp and defense. Every skill's cooldown is 0, the repeat action is "attack", and no empower is pending |
| Combat.SelectAction | Project_Beta.py:202-208 | a digit within the skill count (at most 9) picks that skill's name and 'a' picks "attack". Any other key, a timeout included, keeps the previous action |
| Combat.SelectionCoversFirstNine | Project_Beta.py:203-208 | each of the first nine skills is selected by its digit, and a key that is neither a valid digit nor 'a' repeats the last action |
| Combat.FindSkill | Project_Beta.py:225 | the lookup returns the first skill with that name, and returns nothing iff no skill has it |
| Combat.Classify | Project_Beta.py:211-249 | a turn takes exactly one of four branches: plain attack iff the action is "attack"; unknown skill iff no skill has the name; otherwise the skill is the first one carrying the name, as `next(...)` returns it, and the turn casts it iff it passes the level, mana and cooldown checks and is unavailable iff it fails one |
| Combat.AttackDamage | Project_Beta.py:213-214 | the plain attack deals `max(int(base * mult), 1)`. A product of at least 1 is truncated to the whole number at or below it, and a smaller one gives 1. With no multiplier the damage is max(base, 1) |
| Combat.PlainAttack | Project_Beta.py:211-221 | the plain attack deals at least 1. Without a pending empower it deals max(attack+weapon−defense, 1). A pending empower is cleared after use |
| Combat.FallbackAttack | Project_Beta.py:227-248 | a fallback attack deals at least 1, resets the action to "attack", and leaves the empower state untouched |
| Combat.BuffMultiplier | Project_Beta.py:257 | `power or 1.8`: a missing or zero power gives 1.8, any other power is used as is, so the multiplier is never 0 |
| Combat.DebuffedDefense | Project_Beta.py:262-271 | the effective power is 0.9 when missing. A power in [0, 1) scales the defense and truncates: r ≤ defense × p < r + 1. A power ≥ 1 subtracts `int(p)`, floored at 0. A negative power zeroes a non-negative defense. The result is never negative, never above a non-negative defense, and strictly below any defense ≥ 1 |
| Combat.HealAmount | Project_Beta.py:275-277 | a heal restores twice the level when the power is None or 0, and otherwise `int(power)`, which is at least 1 for a power ≥ 1 |
| Combat.ApplyEffect | Project_Beta.py:254-302 | a damage buff arms multiplier `power or 1.8` and deals no damage. A debuff changes only the defense. A heal changes only the player's battle hp. Any other effect hits for max(attack + bonus − defense, 1), with bonus 5 for Fireball, 3 for Arcane Bolt and 2 otherwise |
| Combat.CastSkill | Project_Beta.py:250-302 | a cast charges exactly the mana cost and sets that skill's cooldown, then applies the effect, chosen by effect before name. A damage buff arms one empower at `power or 1.8` and touches no hp. A debuff sets the defense to the debuffed value and touches no hp. A heal adds the heal amount to the player's hp only. Any other skill hits for max(attack + bonus − defense, 1) |
| Combat.Resolve | Project_Beta.py:210-302 | the action always ends as "attack". Only a cast changes mana or cooldowns, by exactly the cost and that skill's cooldown. A turn changes the monster's hp or the player's hp, never both. The plain attack uses the pending multiplier; fallbacks use none |
| Combat.Retaliate | Project_Beta.py:304-308 | the monster hits only while its hp is positive, for max(monster attack − player defense, 1) |
| Combat.TickCooldowns | Project_Beta.py:310-313 | every positive cooldown drops by exactly 1, the others stay, the keys are kept, and no non-negative cooldown goes negative |
| Combat.RegenMana | Project_Beta.py:315-317 | mana rises by 1 when below the maximum, otherwise stays, and never passes the maximum |
| Combat.EndTurn | Project_Beta.py:304-317 | after the player acts, a living monster hits for max(attack − defense, 1), then cooldowns tick and mana regenerates. The monster's hp and defense, the action and the empower are unchanged |
| Combat.Step | Project_Beta.py:191-317 | after a full turn the repeat action is "attack", and a turn that starts with both sides standing never leaves both down |
| Combat.Fight | Project_Beta.py:191-317 | the loop stops exactly when a side is down. When not both sides start down, it ends with exactly one of player_hp ≤ 0 and monster_hp ≤ 0. It ends undecided only when the keys run out with both standing |
| Combat.StartIsSound | Project_Beta.py:178-189 | a battle starts with its turn invariant holding |
| Combat.StepKeepsSound | Project_Beta.py:210-317 | with non-negative costs and cooldowns, a turn keeps 0 ≤ mana ≤ max, all cooldowns ≥ 0, defense ≥ 0, and at most one pending empower |
| Combat.FightKeepsSound | Project_Beta.py:191-317 | the whole battle loop keeps that invariant |
| Combat.StepPlainAttack | Project_Beta.py:211-221 | a plain-attack turn deals max(int((attack+weapon−defense)×mult), 1) ≥ 1, where mult is not 1 only if an empower is pending. The empower is gone by the end of the turn |
| Combat.StepFallback | Project_Beta.py:227-248 | an unknown or unavailable skill gives a basic attack with multiplier 1. Mana and cooldowns see only the regen and the tick, and the empower state is unchanged |
| Combat.StepCast | Project_Beta.py:236-252 | a cast turn charges the mana cost once and sets the cooldown before the tick, so a positive cooldown ends the turn at cooldown − 1 |
| Combat.StepBuff | Project_Beta.py:255-260 | a damage-buff turn deals no damage and leaves exactly one empower pending with multiplier `power or 1.8` |
| Combat.StepDebuff | Project_Beta.py:262-273 | a debuff turn sets the monster's defense to the debuffed value of its defense and deals no damage |
| Combat.StepHeal | Project_Beta.py:275-307 | a heal turn leaves the monster's hp and defense alone. The player ends the turn with the heal amount added and, if the monster lives, its hit taken |
| Combat.StepDirectHit | Project_Beta.py:282-302 | a turn casting a skill without a known effect hits for max(attack + name bonus − defense, 1), with no multiplier. It leaves the defense and any pending empower as they were |
| Combat.StrikeWhileEmpowered | Project_Beta.py:211-219 | a plain-attack turn with an empower of m pending deals `max(int(base * m), 1)` and clears the empower |
| Combat.BuffThenStrike | Project_Beta.py:211-219 | a buff cast multiplies the very next plain attack by its multiplier, and that attack clears it |
| Combat.TimeoutNeverRepeatsSkill | Project_Beta.py:227-302 | after any turn, a key that selects no skill means a plain attack |
| Quests.NpcTable | Project_Beta.py:494-549 | the starting table has NPCs on exactly seven tiles, each with a quest and with the NPC reward flag unset; the merchant on (0, 4) has the gold quest |
| Quests.InitialTableIsSound | Project_Beta.py:494-549 | every kill quest in the starting table has a positive count, progress 0, is not completed, has non-negative rewards and no quest-level reward flag; no class quest is accepted |
| Quests.AdvanceQuest | Project_Beta.py:336-340 | a quest changes iff it is an incomplete kill quest targeting exactly the killed name. Then progress rises by 1 and `completed` is set iff the count is reached. Sound bookkeeping stays sound |
| Quests.KillProgress | Project_Beta.py:333-340 | each NPC's quest is advanced independently, and NPCs and their other fields are kept |
| Quests.KillProgressKeepsInvariants | Project_Beta.py:333-340 | kill progress keeps progress within the count, the rewards, and the quest-level flags |
| Quests.CompletedQuestFrozen | Project_Beta.py:336 | a completed kill quest is not advanced by further kills |
| Quests.EliteKillsNeverCount | Project_Beta.py:337 | a kill named "Elite X" advances no quest whose target lacks the prefix |
| Quests.Visit | Project_Beta.py:653-689 | `class_path` changes iff it was unset, the class quest is not accepted and the key is 'y', and then only to that class. A completed kill quest adds its reward xp and skill points and runs `gain_xp(stats, 0)`: the level rises while xp reaches the threshold, mana is refilled iff a level was gained, and no other stat changes. It then sets the NPC's flag and resets the quest to progress 0 and incomplete. Every other visit changes nothing. A gold quest raises |
| Quests.VisitKeepsInvariants | Project_Beta.py:677-687 | a visit keeps the player's stats consistent and the quest bookkeeping sound |
| Quests.RewardGuardNeverFires | Project_Beta.py:677-681 | visits and kills never set the quest-level flag the guard reads, so the guard passes whenever a kill quest is completed |
| Quests.RewardOncePerCompletion | Project_Beta.py:677-688 | right after a paying visit, a second visit to the same NPC changes nothing |
| Quests.MerchantVisitRaises | Project_Beta.py:541-546 | visiting the starting table's merchant raises `KeyError` on `completed` |
| Quests.VisitAll | Project_Beta.py:658-675 | over any run of NPC visits, a class path once set never changes |
| Outcome.VictoryXpOfSpawn | Project_Beta.py:324-328 | victory XP for a spawned monster is (table value of its species, default 5) + 2×level, doubled iff it is elite |
| Outcome.SpeciesNamesArePlain | Project_Beta.py:54-61 | no species name contains "Elite ", so the prefix strip returns the species |
| Outcome.VictoryXp | Project_Beta.py:324-328 | a victory over a monster of level ≥ 0 is worth at least 5 XP, and at least 10 for an elite |
| Outcome.LoseXp | Project_Beta.py:347-349 | defeat keeps xp − xp div 2, the rounded-up half: between 0 and the old xp when xp ≥ 0. It keeps the stats consistent and changes nothing else |
| Outcome.WeaponDamage | Project_Beta.py:185 | nothing wielded gives 0. A wielded index resolves iff it is a valid Python index, else `IndexError`. A non-negative index gives `inventory[i]`'s damage and a negative one `inventory[len + i]`'s |
| Outcome.Conclude | Project_Beta.py:322-349 | a win grants `VictoryXp` through `gain_xp` and advances kill quests by the full monster name. A loss keeps the rounded-up half of xp and touches no quest |
| Outcome.Battle | Project_Beta.py:177-354 | a battle raises only for an empty level range or a bad weapon index. It never changes stored hp, attack, defense, speed, max mana, gold, weapon or class. Its last turn is the battle loop's result over the keys, fought with the wielded weapon's damage and the spawned monster; keys that run out leave it undecided. A decided battle ends exactly as `Conclude` settles it, with the mana the fight left. A win ends with the monster down and the player up; a loss ends with the player down |
| Outcome.BattleKeepsInvariants | Project_Beta.py:177-354 | with non-negative monster levels and skill costs, a battle keeps the stats consistent and the kill quests sound |
| Outcome.SlimeFight | Project_Beta.py:191-317 | starting stats with the starter sword against a level-1 Slime: three timeouts give three plain hits of 5, and the Slime dies on the third with the player at 12 hp |
| Outcome.SlimeScenario | Project_Beta.py:177-330 | that battle is won for 5 + 2 = 7 XP and no level-up |
| SkillBook.ClassSkills | Project_Beta.py:698-716 | Swordsman, Mage and Cleric have two skills each; an unset or unknown class path has none. Every skill needs level 1, belongs to that class, has a positive cooldown and a non-negative mana cost, and names are distinct |
| SkillBook.ShippedSkillsHaveEffects | Project_Beta.py:703-715 | every shipped skill has a recognised effect, and Fireball and Arcane Bolt are damage buffs |
| SkillBook.ShippedSkillsDealNoDamage | Project_Beta.py:254-302 | casting a shipped skill never damages the monster, so the named damage branches are dead |
| SkillBook.PowerStrikeScenario | Project_Beta.py:702 | a new-game Swordsman (attack 5, starter sword 3) fights a level-1 Slime (hp 15, defense 3). Pressing '1' and then timing out hits for int(5 × 2.5) = 12 on the second turn. The Slime is left with 3 hp and the player with 12 |
| SkillBook.FireballScenario | Project_Beta.py:708 | a Mage at 8 mana pressing '1': mana goes to 0 and regenerates to 1. Fireball's cooldown is 7, ticked to 6. The monster is untouched and a ×1.5 empower is pending |
| Menus.Upgrade | Project_Beta.py:410-422 | a point is spent iff the key is '1'..'5' and points remain. '1' buys 2 hp, '2' 1 attack, '3' 1 defense, '4' 1 speed and '5' 2 max mana, for one point each. Nothing else changes and consistency is kept |
| Menus.UpgradeSession | Project_Beta.py:393-422 | over a menu session up to 'b', points spent pay exactly for stats gained, and the balance stays between 0 and its start |
| Menus.Wield | Project_Beta.py:471-477 | a digit within the inventory (at most 9) wields that item, or unwields it if it was wielded. Other keys change nothing |
| Menus.WieldTwiceRestores | Project_Beta.py:471-477 | pressing the same digit twice restores the wield state, unless the first press replaced another item |
| Menus.WieldedWeaponResolves | Project_Beta.py:471-477 | the menu only wields existing items, so the battle's weapon lookup succeeds with that item's damage |
| Menus.PickMonster | Project_Beta.py:615-623 | the pick is the first entry whose running total reaches draw × total, or the last entry if none does. An empty list raises |
| Menus.PickIsWeighted | Project_Beta.py:615-623 | with non-negative weights and a draw in [0, 1), the target falls inside the picked entry's slice of the total |

## Left out

- Rendering and input. The model leaves out curses drawing, `stdscr.timeout`/`getch`, `time.sleep`, and every on-screen message. Keys are an input sequence, one per turn; a timeout is one more key value.
- Randomness. The draws of `random.randint` and `random.random` are parameters, and their distributions are not modelled.
- Persistence. `save_game` and `load_game` are file I/O with JSON and `eval` of saved keys.
- The overworld. Viewport and map drawing, `get_landmark_at`, the bush-zone and landmark tables, movement, and the zone dispatch that starts a battle (lines 751-774) are left out. So is the position reset after a defeat; `Outcome.Battle` reports the defeat and the caller resets the position.
- `rename_skill_menu`, `skill_menu`, `start_menu` and `help_menu` are left out. They are text entry and display.
- Unread fields. Item fields other than `damage` are carried but never read by combat. The same holds for the skill fields stamina cost, duration, rank, passive, type and description.
- Floating point. Powers, multipliers and pick weights are exact reals, not IEEE doubles. A product that double rounding pushes just below an integer would truncate differently in the source.
- Battle length. The battle loop need not end, because heals can offset damage. `Combat.Fight` is bounded by the length of the key sequence and ends `OutOfInput` when the keys run out.
- The global `npcs` dict is an explicit map passed in and returned.
- Basics.DeleteAll: its own contract states only that the result is no longer than the input. What it does is stated by `Basics.DeleteAllAbsent` and `Basics.DeleteAllPrefix`, the two cases the elite prefix needs.
- Outcome.VictoryXp: its own contract gives only lower bounds. Its exact value for every spawned monster is stated by `Outcome.VictoryXpOfSpawn`.

=== FILE: basics.dfy ===
/** Helpers shared by the whole game model: optional values, the exceptions
    the game can raise, integer clamps, Python's truncating int() and
    Python's str.replace(pattern, ""). */
module Basics {

  /** Python's None / value. */
  datatype Option<+T> = None | Some(value: T)

  /** The Python exceptions the modelled code can raise. */
  datatype Error =
    | KeyError(key: string)   // a dict subscript on a missing key
    | IndexError              // a list subscript out of range
    | ValueError              // random.randint on an empty range

  /** The outcome of an operation that may raise. */
  datatype Result<+T> = Ok(value: T) | Err(error: Error)

  function Max(a: int, b: int): (r: int)
    ensures r >= a && r >= b
    ensures r == a || r == b
  {
    if a >= b then a else b
  }

  function Min(a: int, b: int): (r: int)
    ensures r <= a && r <= b
    ensures r == a || r == b
  {
    if a <= b then a else b
  }

  /** Python's int() on a float: rounds toward zero. */
  function Trunc(x: real): (r: int)
    ensures 0.0 <= x ==> 0 <= r && r as real <= x < r as real + 1.0
    ensures x < 0.0 ==> r <= 0 && r as real - 1.0 < x <= r as real
  {
    if x >= 0.0 then x.Floor else -((-x).Floor)
  }

  /** Every int() in the combat code is clamped from below by 1, and under
      that clamp truncation and flooring agree. */
  lemma ClampedTruncIsClampedFloor(x: real)
    ensures Max(Trunc(x), 1) == Max(x.Floor, 1)
  {
  }

  predicate StartsWith(s: string, prefix: string)
  {
    |prefix| <= |s| && s[..|prefix|] == prefix
  }

  /** True when `pat` occurs somewhere inside `s`. */
  predicate Contains(s: string, pat: string)
    decreases |s|
  {
    StartsWith(s, pat) || (|s| > 0 && Contains(s[1..], pat))
  }

  /** `s.replace(pat, "")`: every non-overlapping occurrence of `pat`,
      scanning left to right, is removed. */
  function DeleteAll(s: string, pat: string): (r: string)
    requires |pat| > 0
    ensures |r| <= |s|
    decreases |s|
  {
    if |s| == 0 then ""
    else if StartsWith(s, pat) then DeleteAll(s[|pat|..], pat)
    else [s[0]] + DeleteAll(s[1..], pat)
  }

  /** A string without the pattern is left as it is. */
  lemma {:induction false} DeleteAllAbsent(s: string, pat: string)
    requires |pat| > 0
    requires !Contains(s, pat)
    ensures DeleteAll(s, pat) == s
    decreases |s|
  {
    if |s| > 0 {
      DeleteAllAbsent(s[1..], pat);
      assert [s[0]] + s[1..] == s;
    }
  }

  /** A leading occurrence is removed and the scan goes on behind it. */
  lemma DeleteAllPrefix(s: string, pat: string)
    requires |pat| > 0
    ensures DeleteAll(pat + s, pat) == DeleteAll(s, pat)
  {
    assert StartsWith(pat + s, pat);
    assert (pat + s)[|pat|..] == s;
  }
}

=== FILE: combat.dfy ===
/** One turn of the battle loop and the loop itself. A turn reads one key
    (or a timeout), resolves the player's action, lets a living monster hit
    back, ticks the cooldowns and regenerates one point of mana. */
module Combat {
  import opened Basics
  import opened Entities

  /** `ord('a')`: the key that selects the plain attack. */
  const KeyAttack: int := 97
  /** The action name of the plain attack. */
  const Attack: string := "attack"

  /** What stays fixed during one encounter: the player's stats as they
      were on entry (their `currentMana` is superseded by the turn state),
      the wielded weapon's damage, the skill list and the monster. */
  datatype Encounter = Encounter(stats: Stats, weaponDamage: int, skills: seq<Skill>, monster: Monster)

  /** What changes from turn to turn: both hp pools, the monster's defense
      (debuffs lower it), the player's mana pool, cooldowns by skill name,
      the action a timeout repeats, and the one-shot empower. */
  datatype TurnState = TurnState(
    playerHp: int,
    monsterHp: int,
    monsterDefense: int,
    currentMana: int,
    cooldowns: map<string, int>,
    lastAction: string,
    empoweredMult: real,
    empoweredTurns: int)

  /** The state the battle loop starts from. */
  function Start(e: Encounter): (s: TurnState)
    ensures s.playerHp == e.stats.hp && s.monsterHp == e.monster.hp
    ensures s.monsterDefense == e.monster.defense && s.currentMana == e.stats.currentMana
    ensures forall i :: 0 <= i < |e.skills| ==> e.skills[i].name in s.cooldowns
    ensures forall n :: n in s.cooldowns ==> s.cooldowns[n] == 0
    ensures s.lastAction == Attack && s.empoweredTurns == 0 && s.empoweredMult == 1.0
  {
    TurnState(e.stats.hp, e.monster.hp, e.monster.defense, e.stats.currentMana,
              map i | 0 <= i < |e.skills| :: e.skills[i].name := 0,
              Attack, 1.0, 0)
  }

  /** The keys that select a skill: '1' up to the digit of the ninth skill
      or of the last one, whichever comes first. */
  predicate SelectsSkill(skills: seq<Skill>, key: int)
  {
    KeyOne <= key <= KeyOne - 1 + Min(9, |skills|)
  }

  /** The action for this turn: a digit picks a skill by position, 'a'
      picks the plain attack, anything else (a timeout included) repeats the
      previous action. */
  function SelectAction(skills: seq<Skill>, last: string, key: int): (r: string)
    ensures SelectsSkill(skills, key) ==> 0 <= key - KeyOne < |skills| && r == skills[key - KeyOne].name
    ensures key == KeyAttack ==> r == Attack
    ensures !SelectsSkill(skills, key) && key != KeyAttack ==> r == last
    ensures r == last || r == Attack || exists i :: 0 <= i < |skills| && r == skills[i].name
  {
    if SelectsSkill(skills, key) then skills[key - KeyOne].name
    else if key == KeyAttack then Attack
    else last
  }

  /** Each of the first nine skills has a key that selects it, whatever the
      previous action was; a key outside the digits and 'a' repeats it. */
  lemma SelectionCoversFirstNine(skills: seq<Skill>, last: string, key: int)
    ensures forall i :: 0 <= i < Min(9, |skills|) ==> SelectAction(skills, last, KeyOne + i) == skills[i].name
    ensures !SelectsSkill(skills, key) && key != KeyAttack ==> SelectAction(skills, last, key) == last
  {
  }

  /** The first skill carrying `name`, as `next(...)` finds it. */
  function FindSkill(skills: seq<Skill>, name: string): (r: Option<Skill>)
    ensures r.None? <==> forall i :: 0 <= i < |skills| ==> skills[i].name != name
    ensures r.Some? ==> exists i :: 0 <= i < |skills| && skills[i] == r.value && r.value.name == name
                                    && forall j :: 0 <= j < i ==> skills[j].name != name
  {
    if |skills| == 0 then None
    else if skills[0].name == name then Some(skills[0])
    else
      var r := FindSkill(skills[1..], name);
      assert r.Some? ==> exists i :: 0 < i < |skills| && skills[i] == r.value && forall j :: 0 < j < i ==> skills[j].name != name by {
        if r.Some? {
          var k :| 0 <= k < |skills[1..]| && skills[1..][k] == r.value && r.value.name == name
                 && forall j :: 0 <= j < k ==> skills[1..][j].name != name;
          assert skills[k + 1] == r.value;
          assert forall j :: 0 < j < k + 1 ==> skills[j].name == skills[1..][j - 1].name;
        }
      }
      r
  }

  /** `skill_cooldowns.get(name, 0)`. */
  function CooldownOf(cooldowns: map<string, int>, name: string): int
  {
    if name in cooldowns then cooldowns[name] else 0
  }

  /** The three requirements checked before a skill is used. */
  predicate Usable(e: Encounter, s: TurnState, sk: Skill)
  {
    && e.stats.level >= sk.levelRequired
    && s.currentMana >= sk.manaCost
    && CooldownOf(s.cooldowns, sk.name) == 0
  }

  /** Which branch of the action resolution a turn takes. */
  datatype Choice = Plain | UnknownSkill | Unavailable(skill: Skill) | Cast(skill: Skill)

  function Classify(e: Encounter, s: TurnState): (c: Choice)
    ensures c.Plain? <==> s.lastAction == Attack
    ensures c.UnknownSkill? <==> s.lastAction != Attack && forall i :: 0 <= i < |e.skills| ==> e.skills[i].name != s.lastAction
    ensures c.Cast? || c.Unavailable? ==> c.skill in e.skills && c.skill.name == s.lastAction && s.lastAction != Attack
    ensures c.Cast? ==> Usable(e, s, c.skill)
    ensures c.Unavailable? ==> !Usable(e, s, c.skill)
    ensures c.Cast? || c.Unavailable? ==> FindSkill(e.skills, s.lastAction) == Some(c.skill)
  {
    if s.lastAction == Attack then Plain
    else match FindSkill(e.skills, s.lastAction)
      case None => UnknownSkill
      case Some(sk) => if Usable(e, s, sk) then Cast(sk) else Unavailable(sk)
  }

  /** Attack plus weapon damage minus the monster's current defense. */
  function BaseDamage(e: Encounter, s: TurnState): int
  {
    e.stats.attack + e.weaponDamage - s.monsterDefense
  }

  /** The factor the plain attack applies: the empower if one is pending. */
  function Multiplier(s: TurnState): real
  {
    if s.empoweredTurns > 0 then s.empoweredMult else 1.0
  }

  /** The damage of a plain attack: `max(int(base * mult), 1)`. A product
      of at least one is truncated to the whole number at or below it, a
      smaller one gives the minimum of one; without a multiplier it is the
      base damage, at least one. */
  function AttackDamage(base: int, mult: real): (r: int)
    ensures r >= 1
    ensures base as real * mult >= 1.0 ==> r as real <= base as real * mult < r as real + 1.0
    ensures base as real * mult < 1.0 ==> r == 1
    ensures mult == 1.0 ==> r == Max(base, 1)
  {
    Max(Trunc(base as real * mult), 1)
  }

  /** The plain attack: consumes a pending empower. */
  function PlainAttack(e: Encounter, s: TurnState): (r: TurnState)
    ensures s.monsterHp - r.monsterHp >= 1
    ensures s.empoweredTurns <= 0 ==> s.monsterHp - r.monsterHp == Max(BaseDamage(e, s), 1)
    ensures s.empoweredTurns > 0 ==> r.empoweredTurns == 0 && r.empoweredMult == 1.0
    ensures s.empoweredTurns <= 0 ==> r.empoweredTurns == s.empoweredTurns && r.empoweredMult == s.empoweredMult
    ensures r == s.(monsterHp := r.monsterHp, empoweredTurns := r.empoweredTurns, empoweredMult := r.empoweredMult)
  {
    var dmg := AttackDamage(BaseDamage(e, s), Multiplier(s));
    var hit := s.(monsterHp := s.monsterHp - dmg);
    if s.empoweredTurns > 0 then hit.(empoweredTurns := 0, empoweredMult := 1.0) else hit
  }

  /** The basic attack used when the chosen skill is unknown or unavailable:
      no multiplier, and the empower is neither used nor cleared. */
  function FallbackAttack(e: Encounter, s: TurnState): (r: TurnState)
    ensures s.monsterHp - r.monsterHp >= 1
    ensures r.lastAction == Attack
    ensures r.empoweredTurns == s.empoweredTurns && r.empoweredMult == s.empoweredMult
    ensures r == s.(monsterHp := r.monsterHp, lastAction := Attack)
  {
    s.(monsterHp := s.monsterHp - Max(BaseDamage(e, s), 1), lastAction := Attack)
  }

  /** The multiplier a damage buff sets: `power or 1.8`. A missing or zero
      power falls back to 1.8, so the multiplier is never zero. */
  function BuffMultiplier(power: Option<real>): (r: real)
    ensures power == None || power == Some(0.0) ==> r == 1.8
    ensures power.Some? && power.value != 0.0 ==> r == power.value
    ensures r != 0.0
  {
    if power == None || power == Some(0.0) then 1.8 else power.value
  }

  /** The power a defense debuff uses: a missing power counts as 0.9. */
  function DebuffPower(power: Option<real>): real
  {
    if power.None? then 0.9 else power.value
  }

  /** Scaling a positive defense by a factor below one lowers it; scaling a
      non-negative one by a non-negative factor keeps it non-negative. */
  lemma ScaleBelowOne(defense: int, p: real)
    requires p < 1.0
    ensures defense >= 1 ==> defense as real * p < defense as real
    ensures defense >= 0 && p >= 0.0 ==> 0.0 <= defense as real * p
    ensures defense >= 0 && p <= 0.0 ==> defense as real * p <= 0.0
  {
    if defense >= 1 {
      if p <= 0.0 {
        assert defense as real * p <= 0.0;
      } else {
        assert defense as real * (1.0 - p) > 0.0;
      }
    }
    if defense >= 0 && p >= 0.0 {
      assert 0.0 <= defense as real * p;
    }
    if defense >= 0 && p <= 0.0 {
      assert defense as real * -p >= 0.0;
    }
  }

  /** The defense a debuff leaves: a power below one scales the defense
      (truncating), a larger one is subtracted after truncation; never below
      zero. */
  function DebuffedDefense(defense: int, power: Option<real>): (r: int)
    ensures r >= 0
    ensures defense >= 0 ==> r <= defense
    ensures defense >= 1 ==> r < defense
    ensures 0.0 <= DebuffPower(power) < 1.0 && defense >= 0 ==>
      r as real <= defense as real * DebuffPower(power) < r as real + 1.0
    ensures DebuffPower(power) < 0.0 && defense >= 0 ==> r == 0
    ensures DebuffPower(power) >= 1.0 ==> r == Max(0, defense - Trunc(DebuffPower(power)))
  {
    var p := DebuffPower(power);
    if p < 1.0 then
      ScaleBelowOne(defense, p);
      Max(0, Trunc(defense as real * p))
    else
      Max(0, defense - Trunc(p))
  }

  /** The hp a heal restores: twice the level when the power is missing or
      zero, otherwise the power truncated. */
  function HealAmount(level: int, power: Option<real>): (r: int)
    ensures power == None || power == Some(0.0) ==> r == 2 * level
    ensures power.Some? && power.value != 0.0 ==> r == Trunc(power.value)
    ensures power.Some? && power.value >= 1.0 ==> r >= 1
  {
    if power == None || power == Some(0.0) then level * 2 else Trunc(power.value)
  }

  /** The bonus a direct-damage skill adds to attack, chosen by name. */
  function DirectBonus(name: string): int
  {
    if name == "Fireball" then 5 else if name == "Arcane Bolt" then 3 else 2
  }

  /** The effect of a skill whose costs are paid. */
  function ApplyEffect(e: Encounter, s: TurnState, sk: Skill): (r: TurnState)
    ensures r.currentMana == s.currentMana && r.cooldowns == s.cooldowns && r.lastAction == Attack
    ensures sk.effect == DamageBuff ==>
      r == s.(empoweredMult := BuffMultiplier(sk.power), empoweredTurns := 1, lastAction := Attack)
    ensures sk.effect == MonsDefenseDebuff ==>
      r == s.(monsterDefense := DebuffedDefense(s.monsterDefense, sk.power), lastAction := Attack)
    ensures sk.effect == HpBuff ==>
      r == s.(playerHp := s.playerHp + HealAmount(e.stats.level, sk.power), lastAction := Attack)
    ensures sk.effect == NoEffect ==>
      && s.monsterHp - r.monsterHp == Max(e.stats.attack + DirectBonus(sk.name) - s.monsterDefense, 1)
      && r == s.(monsterHp := r.monsterHp, lastAction := Attack)
  {
    match sk.effect
    case DamageBuff =>
      s.(empoweredMult := BuffMultiplier(sk.power), empoweredTurns := 1, lastAction := Attack)
    case MonsDefenseDebuff =>
      s.(monsterDefense := DebuffedDefense(s.monsterDefense, sk.power), lastAction := Attack)
    case HpBuff =>
      s.(playerHp := s.playerHp + HealAmount(e.stats.level, sk.power), lastAction := Attack)
    case NoEffect =>
      var dmg := Max(e.stats.attack + DirectBonus(sk.name) - s.monsterDefense, 1);
      s.(monsterHp := s.monsterHp - dmg, lastAction := Attack)
  }

  /** Charge the costs of a usable skill, then apply its effect. */
  function CastSkill(e: Encounter, s: TurnState, sk: Skill): (r: TurnState)
    ensures r.currentMana == s.currentMana - sk.manaCost
    ensures r.cooldowns == s.cooldowns[sk.name := sk.cooldown]
    ensures r.lastAction == Attack
    // then the skill's effect, chosen by effect before name
    ensures sk.effect == DamageBuff ==>
      && r.monsterHp == s.monsterHp && r.playerHp == s.playerHp && r.monsterDefense == s.monsterDefense
      && r.empoweredTurns == 1 && r.empoweredMult == BuffMultiplier(sk.power)
    ensures sk.effect == MonsDefenseDebuff ==>
      && r.monsterDefense == DebuffedDefense(s.monsterDefense, sk.power)
      && r.monsterHp == s.monsterHp && r.playerHp == s.playerHp
    ensures sk.effect == HpBuff ==>
      && r.playerHp == s.playerHp + HealAmount(e.stats.level, sk.power)
      && r.monsterHp == s.monsterHp && r.monsterDefense == s.monsterDefense
    ensures sk.effect == NoEffect ==>
      && s.monsterHp - r.monsterHp == Max(e.stats.attack + DirectBonus(sk.name) - s.monsterDefense, 1)
      && r.playerHp == s.playerHp && r.monsterDefense == s.monsterDefense
  {
    ApplyEffect(e, s.(currentMana := s.currentMana - sk.manaCost,
                      cooldowns := s.cooldowns[sk.name := sk.cooldown]), sk)
  }

  /** The player's half of a turn, for the action in `s.lastAction`. */
  function Resolve(e: Encounter, s: TurnState): (r: TurnState)
    ensures r.lastAction == Attack
    ensures r.playerHp == s.playerHp || r.monsterHp == s.monsterHp
    ensures r.monsterHp <= s.monsterHp
    ensures !Classify(e, s).Cast? ==>
      && r.currentMana == s.currentMana && r.cooldowns == s.cooldowns
      && r.playerHp == s.playerHp && r.monsterDefense == s.monsterDefense
      && s.monsterHp - r.monsterHp >= 1
    ensures Classify(e, s).Cast? ==>
      && r.currentMana == s.currentMana - Classify(e, s).skill.manaCost
      && r.cooldowns == s.cooldowns[Classify(e, s).skill.name := Classify(e, s).skill.cooldown]
    ensures Classify(e, s).Plain? ==>
      && s.monsterHp - r.monsterHp == AttackDamage(BaseDamage(e, s), Multiplier(s))
      && (s.empoweredTurns > 0 ==> r.empoweredTurns == 0 && r.empoweredMult == 1.0)
    ensures Classify(e, s).UnknownSkill? || Classify(e, s).Unavailable? ==>
      && s.monsterHp - r.monsterHp == Max(BaseDamage(e, s), 1)
      && r.empoweredTurns == s.empoweredTurns && r.empoweredMult == s.empoweredMult
  {
    match Classify(e, s)
    case Plain => PlainAttack(e, s)
    case UnknownSkill => FallbackAttack(e, s)
    case Unavailable(_) => FallbackAttack(e, s)
    case Cast(sk) => CastSkill(e, s, sk)
  }

  /** The monster's half of a turn: a living monster hits for its attack
      minus the player's defense, at least one. */
  function Retaliate(e: Encounter, s: TurnState): (r: TurnState)
    ensures s.monsterHp > 0 ==> s.playerHp - r.playerHp == Max(e.monster.attack - e.stats.defense, 1) >= 1
    ensures s.monsterHp <= 0 ==> r.playerHp == s.playerHp
    ensures r == s.(playerHp := r.playerHp)
  {
    if s.monsterHp > 0 then s.(playerHp := s.playerHp - Max(e.monster.attack - e.stats.defense, 1))
    else s
  }

  /** Every positive cooldown goes down by one; the others stay. */
  function TickCooldowns(cooldowns: map<string, int>): (r: map<string, int>)
    ensures r.Keys == cooldowns.Keys
    ensures forall n :: n in cooldowns && cooldowns[n] > 0 ==> r[n] == cooldowns[n] - 1
    ensures forall n :: n in cooldowns && cooldowns[n] <= 0 ==> r[n] == cooldowns[n]
    ensures forall n :: n in cooldowns && cooldowns[n] >= 0 ==> r[n] >= 0
  {
    map n | n in cooldowns :: if cooldowns[n] > 0 then cooldowns[n] - 1 else cooldowns[n]
  }

  /** One point of mana back per turn, up to the maximum. */
  function RegenMana(current: int, maximum: int): (r: int)
    ensures current < maximum ==> r == current + 1
    ensures current >= maximum ==> r == current
    ensures current <= maximum ==> r <= maximum
  {
    if current < maximum then Min(maximum, current + 1) else current
  }

  /** The rest of a turn after the player has acted: the monster's hit,
      the cooldown tick and the mana regeneration; the monster's hp and
      defense, the action and the empower are left alone. */
  function EndTurn(e: Encounter, s: TurnState): (r: TurnState)
    ensures s.monsterHp > 0 ==> s.playerHp - r.playerHp == Max(e.monster.attack - e.stats.defense, 1)
    ensures s.monsterHp <= 0 ==> r.playerHp == s.playerHp
    ensures r.cooldowns == TickCooldowns(s.cooldowns)
    ensures r.currentMana == RegenMana(s.currentMana, e.stats.mana)
    ensures r == s.(playerHp := r.playerHp, cooldowns := r.cooldowns, currentMana := r.currentMana)
  {
    var hit := Retaliate(e, s);
    hit.(cooldowns := TickCooldowns(hit.cooldowns),
         currentMana := RegenMana(hit.currentMana, e.stats.mana))
  }

  /** One iteration of the battle loop, reading `key`. */
  function Step(e: Encounter, s: TurnState, key: int): (r: TurnState)
    ensures r.lastAction == Attack
    ensures s.playerHp > 0 && s.monsterHp > 0 ==> !(r.playerHp <= 0 && r.monsterHp <= 0)
  {
    EndTurn(e, Resolve(e, s.(lastAction := SelectAction(e.skills, s.lastAction, key))))
  }

  /** How the loop ended: one side fell, or the keys ran out first. */
  datatype Fought = Finished(turn: TurnState) | OutOfInput(turn: TurnState)

  /** The battle loop over a sequence of keys, one per turn (a timeout is a
      key too). The loop itself need not end, since heals can outpace
      damage; the key sequence bounds it. */
  function Fight(e: Encounter, s: TurnState, keys: seq<int>): (r: Fought)
    decreases |keys|
    ensures r.Finished? ==> r.turn.playerHp <= 0 || r.turn.monsterHp <= 0
    ensures r.OutOfInput? ==> r.turn.playerHp > 0 && r.turn.monsterHp > 0
    ensures !(s.playerHp <= 0 && s.monsterHp <= 0) ==> !(r.turn.playerHp <= 0 && r.turn.monsterHp <= 0)
  {
    if s.playerHp <= 0 || s.monsterHp <= 0 then Finished(s)
    else if |keys| == 0 then OutOfInput(s)
    else Fight(e, Step(e, s, keys[0]), keys[1..])
  }

  /** Skills whose costs and cooldowns are not negative, as every shipped
      skill is. */
  predicate SaneSkills(skills: seq<Skill>)
  {
    forall i :: 0 <= i < |skills| ==> skills[i].manaCost >= 0 && skills[i].cooldown >= 0
  }

  /** What the battle loop keeps true from turn to turn: the mana pool
      within its maximum, no negative cooldown or defense, and at most one
      pending empower, with a neutral multiplier when none is pending. */
  predicate TurnSound(e: Encounter, s: TurnState)
  {
    && 0 <= s.currentMana <= e.stats.mana
    && (forall n :: n in s.cooldowns ==> s.cooldowns[n] >= 0)
    && s.monsterDefense >= 0
    && 0 <= s.empoweredTurns <= 1
    && (s.empoweredTurns == 0 ==> s.empoweredMult == 1.0)
  }

  /** The loop starts sound for a consistent player and a monster with
      non-negative defense. */
  lemma StartIsSound(e: Encounter)
    requires Consistent(e.stats)
    requires e.monster.defense >= 0
    ensures TurnSound(e, Start(e))
  {
  }

  /** Every turn keeps the loop's invariant. */
  lemma StepKeepsSound(e: Encounter, s: TurnState, key: int)
    requires SaneSkills(e.skills)
    requires TurnSound(e, s)
    ensures TurnSound(e, Step(e, s, key))
  {
    var a := s.(lastAction := SelectAction(e.skills, s.lastAction, key));
    var c := Classify(e, a);
    var p := Resolve(e, a);
    if c.Cast? {
      assert c.skill.manaCost >= 0 && c.skill.cooldown >= 0 by {
        var i :| 0 <= i < |e.skills| && e.skills[i] == c.skill;
      }
      assert 0 <= p.currentMana <= e.stats.mana;
      assert forall n :: n in p.cooldowns ==> p.cooldowns[n] >= 0;
      match c.skill.effect
      case DamageBuff =>
      case MonsDefenseDebuff =>
      case HpBuff =>
      case NoEffect =>
    }
  }

  /** The whole loop keeps the invariant. */
  lemma {:induction false} FightKeepsSound(e: Encounter, s: TurnState, keys: seq<int>)
    requires SaneSkills(e.skills)
    requires TurnSound(e, s)
    ensures TurnSound(e, Fight(e, s, keys).turn)
    decreases |keys|
  {
    if s.playerHp > 0 && s.monsterHp > 0 && |keys| > 0 {
      StepKeepsSound(e, s, keys[0]);
      FightKeepsSound(e, Step(e, s, keys[0]), keys[1..]);
    }
  }

  /** A turn whose action is the plain attack: the damage is the attack
      formula times the pending multiplier, at least one, and a pending
      empower is gone at the end of the turn. */
  lemma StepPlainAttack(e: Encounter, s: TurnState, key: int)
    requires SelectAction(e.skills, s.lastAction, key) == Attack
    ensures var r := Step(e, s, key);
      && s.monsterHp - r.monsterHp == AttackDamage(BaseDamage(e, s), Multiplier(s)) >= 1
      && (s.empoweredTurns > 0 ==> r.empoweredTurns == 0 && r.empoweredMult == 1.0)
      && (s.empoweredTurns <= 0 ==> s.monsterHp - r.monsterHp == Max(BaseDamage(e, s), 1))
  {
  }

  /** A turn whose skill is unknown or fails a requirement: a basic attack
      without multiplier, no mana or cooldown charged, the empower left as
      it was; only the end-of-turn tick and regeneration touch the pools. */
  lemma StepFallback(e: Encounter, s: TurnState, key: int)
    requires var a := s.(lastAction := SelectAction(e.skills, s.lastAction, key));
      Classify(e, a).UnknownSkill? || Classify(e, a).Unavailable?
    ensures var r := Step(e, s, key);
      && s.monsterHp - r.monsterHp == Max(BaseDamage(e, s), 1)
      && r.currentMana == RegenMana(s.currentMana, e.stats.mana)
      && r.cooldowns == TickCooldowns(s.cooldowns)
      && r.empoweredTurns == s.empoweredTurns && r.empoweredMult == s.empoweredMult
  {
  }

  /** A turn that uses a skill: the mana cost is charged once and the
      skill's cooldown is set before the end-of-turn tick. */
  lemma StepCast(e: Encounter, s: TurnState, key: int)
    requires Classify(e, s.(lastAction := SelectAction(e.skills, s.lastAction, key))).Cast?
    ensures var sk := Classify(e, s.(lastAction := SelectAction(e.skills, s.lastAction, key))).skill;
      var r := Step(e, s, key);
      && r.currentMana == RegenMana(s.currentMana - sk.manaCost, e.stats.mana)
      && r.cooldowns == TickCooldowns(s.cooldowns[sk.name := sk.cooldown])
      && (sk.cooldown > 0 ==> r.cooldowns[sk.name] == sk.cooldown - 1)
  {
  }

  /** A turn that casts a damage buff deals no damage and leaves the
      empower pending for the next turn. */
  lemma StepBuff(e: Encounter, s: TurnState, key: int, sk: Skill)
    requires Classify(e, s.(lastAction := SelectAction(e.skills, s.lastAction, key))) == Cast(sk)
    requires sk.effect == DamageBuff
    ensures var r := Step(e, s, key);
      && r.monsterHp == s.monsterHp && r.monsterDefense == s.monsterDefense
      && r.empoweredTurns == 1 && r.empoweredMult == BuffMultiplier(sk.power)
  {
    var a := s.(lastAction := SelectAction(e.skills, s.lastAction, key));
    var p := CastSkill(e, a, sk);
    assert p.monsterHp == s.monsterHp && p.empoweredTurns == 1 && p.empoweredMult == BuffMultiplier(sk.power);
  }

  /** A turn that casts a defense debuff lowers the monster's defense as
      `DebuffedDefense` says and deals no damage. */
  lemma StepDebuff(e: Encounter, s: TurnState, key: int, sk: Skill)
    requires Classify(e, s.(lastAction := SelectAction(e.skills, s.lastAction, key))) == Cast(sk)
    requires sk.effect == MonsDefenseDebuff
    ensures var r := Step(e, s, key);
      && r.monsterDefense == DebuffedDefense(s.monsterDefense, sk.power)
      && r.monsterHp == s.monsterHp
  {
    var a := s.(lastAction := SelectAction(e.skills, s.lastAction, key));
    var p := CastSkill(e, a, sk);
    assert p.monsterHp == s.monsterHp && p.monsterDefense == DebuffedDefense(s.monsterDefense, sk.power);
  }

  /** A turn that casts a heal restores `HealAmount` before the living
      monster hits back, and leaves the monster alone. */
  lemma StepHeal(e: Encounter, s: TurnState, key: int, sk: Skill)
    requires Classify(e, s.(lastAction := SelectAction(e.skills, s.lastAction, key))) == Cast(sk)
    requires sk.effect == HpBuff
    ensures var r := Step(e, s, key);
      && r.monsterHp == s.monsterHp && r.monsterDefense == s.monsterDefense
      && (s.monsterHp > 0 ==>
            r.playerHp == s.playerHp + HealAmount(e.stats.level, sk.power) - Max(e.monster.attack - e.stats.defense, 1))
      && (s.monsterHp <= 0 ==> r.playerHp == s.playerHp + HealAmount(e.stats.level, sk.power))
  {
    var a := s.(lastAction := SelectAction(e.skills, s.lastAction, key));
    var p := CastSkill(e, a, sk);
    assert p.monsterHp == s.monsterHp && p.playerHp == s.playerHp + HealAmount(e.stats.level, sk.power);
  }

  /** A turn that casts a skill without effect deals the name-based direct
      hit, with no multiplier, and leaves the defense alone. */
  lemma StepDirectHit(e: Encounter, s: TurnState, key: int, sk: Skill)
    requires Classify(e, s.(lastAction := SelectAction(e.skills, s.lastAction, key))) == Cast(sk)
    requires sk.effect == NoEffect
    ensures var r := Step(e, s, key);
      && s.monsterHp - r.monsterHp == Max(e.stats.attack + DirectBonus(sk.name) - s.monsterDefense, 1)
      && r.monsterDefense == s.monsterDefense
      && r.empoweredTurns == s.empoweredTurns && r.empoweredMult == s.empoweredMult
  {
    var a := s.(lastAction := SelectAction(e.skills, s.lastAction, key));
    var p := CastSkill(e, a, sk);
    assert s.monsterHp - p.monsterHp == Max(e.stats.attack + DirectBonus(sk.name) - s.monsterDefense, 1);
  }

  /** A plain-attack turn taken while an empower of `mult` is pending
      multiplies the attack by `mult` and clears the empower. */
  lemma StrikeWhileEmpowered(e: Encounter, s: TurnState, key: int, mult: real)
    requires SelectAction(e.skills, s.lastAction, key) == Attack
    requires s.empoweredTurns == 1 && s.empoweredMult == mult
    ensures var r := Step(e, s, key);
      && s.monsterHp - r.monsterHp == AttackDamage(BaseDamage(e, s), mult)
      && r.empoweredTurns == 0 && r.empoweredMult == 1.0
  {
    StepPlainAttack(e, s, key);
  }

  /** The empower is one-shot: a damage buff cast this turn multiplies the
      next plain attack (whatever key follows, short of a skill digit) and
      is cleared by it. */
  lemma {:induction false} BuffThenStrike(e: Encounter, s: TurnState, key1: int, key2: int, sk: Skill)
    requires Classify(e, s.(lastAction := SelectAction(e.skills, s.lastAction, key1))) == Cast(sk)
    requires sk.effect == DamageBuff
    requires !SelectsSkill(e.skills, key2)
    ensures var s1 := Step(e, s, key1);
      var s2 := Step(e, s1, key2);
      && s1.monsterHp == s.monsterHp
      && s1.monsterHp - s2.monsterHp == AttackDamage(BaseDamage(e, s1), BuffMultiplier(sk.power))
      && s2.empoweredTurns == 0 && s2.empoweredMult == 1.0
  {
    var s1 := Step(e, s, key1);
    StepBuff(e, s, key1, sk);
    assert s1.lastAction == Attack;
    assert SelectAction(e.skills, s1.lastAction, key2) == Attack;
    var s2 := Step(e, s1, key2);
    StrikeWhileEmpowered(e, s1, key2, BuffMultiplier(sk.power));
    assert s1.monsterHp - s2.monsterHp == AttackDamage(BaseDamage(e, s1), BuffMultiplier(sk.power));
  }

  /** After any turn a timeout means a plain attack: every branch puts
      "attack" back in the repeat slot, so a skill is never repeated. */
  lemma TimeoutNeverRepeatsSkill(e: Encounter, s: TurnState, key1: int, key2: int)
    requires !SelectsSkill(e.skills, key2)
    ensures SelectAction(e.skills, Step(e, s, key1).lastAction, key2) == Attack
  {
  }
}

=== FILE: entities.dfy ===
/** The game's records: the player's stats dictionary, inventory items,
    skills, monsters, quests and the NPCs that hand them out. */
module Entities {
  import opened Basics

  /** `ord('1')`: the key of the first entry in every numbered menu (the
      battle's skills, the upgrade menu, the inventory). */
  const KeyOne: int := 49

  /** The player's `stats` dictionary. `mana` is the maximum and
      `currentMana` the pool spent in battle; `wieldedIndex` points into the
      inventory and `classPath` is unset until a class quest is accepted. */
  datatype Stats = Stats(
    hp: int,
    attack: int,
    defense: int,
    speed: int,
    mana: int,
    currentMana: int,
    skillPoints: int,
    xp: int,
    level: int,
    gold: int,
    wieldedIndex: Option<int>,
    classPath: Option<string>)

  /** The invariant the game keeps between its operations: a positive
      level, experience below the next threshold, the mana pool within its
      maximum and no negative skill points. */
  predicate Consistent(s: Stats)
  {
    && 1 <= s.level
    && 0 <= s.xp < s.level * 10
    && 0 <= s.currentMana <= s.mana
    && 0 <= s.skillPoints
  }

  /** An inventory item; combat reads only `damage`. */
  datatype Item = Item(name: string, damage: int, dex: int, crit: int, mana: int)

  /** The effect tag of a skill. `NoEffect` stands for Python's None and for
      any string other than the three the battle loop recognises. */
  datatype Effect = DamageBuff | MonsDefenseDebuff | HpBuff | NoEffect

  /** A skill. `name` is the identity key (cooldowns and the repeat-action
      slot use it), `customName` is only displayed. `power` is None when the
      skill was built with `power=None`. */
  datatype Skill = Skill(
    name: string,
    customName: string,
    description: string,
    skillType: string,
    manaCost: int,
    staminaCost: int,
    cooldown: int,
    requiredClass: Option<string>,
    rank: string,
    passive: bool,
    levelRequired: int,
    effect: Effect,
    duration: int,
    power: Option<real>)

  /** A spawned monster; lives for one encounter. */
  datatype Monster = Monster(
    name: string,
    level: int,
    hp: int,
    attack: int,
    speed: int,
    defense: int,
    elite: bool)

  /** A grid coordinate, the key of the NPC table. */
  type Pos = (int, int)

  datatype Reward = Reward(xp: int, skillPoints: int)

  /** The three quest kinds. A kill quest's own `rewardGiven` is the flag
      the NPC interaction reads; nothing in the game ever writes it. */
  datatype Quest =
    | KillQuest(
        target: string,
        count: int,
        progress: int,
        completed: bool,
        reward: Reward,
        rewardGiven: bool)
    | ClassQuest(className: string, accepted: bool, completed: bool)
    | GoldQuest

  /** An NPC record. Its `rewardGiven` is the flag the NPC interaction
      writes (and a save restores); nothing reads it. */
  datatype Npc = Npc(dialogue: string, quest: Option<Quest>, rewardGiven: bool)

  /** The bookkeeping a kill quest keeps: a positive target count, progress
      between zero and the count, and `completed` exactly when the count is
      reached. */
  predicate KillQuestSound(q: Quest)
  {
    q.KillQuest? ==> 1 <= q.count && 0 <= q.progress <= q.count && (q.completed <==> q.progress == q.count)
  }

  /** The state a new game starts from, and its starter sword. */
  function NewGame(): (r: (Stats, seq<Item>))
    ensures Consistent(r.0)
    ensures r.0.level == 1 && r.0.xp == 0 && r.0.currentMana == r.0.mana && r.0.skillPoints == 0
    ensures r.0.wieldedIndex.None? && r.0.classPath.None?
    ensures |r.1| == 1 && r.1[0].damage > 0
  {
    (Stats(hp := 20, attack := 5, defense := 1, speed := 2, mana := 10, currentMana := 10,
           skillPoints := 0, xp := 0, level := 1, gold := 1, wieldedIndex := None, classPath := None),
     [Item("Rusty Sword", damage := 3, dex := 0, crit := 1, mana := 0)])
  }
}

=== FILE: menus.dfy ===
/** The state changes of the small menus: spending skill points, wielding
    an item, and the weighted monster pick of the mixed zone. */
module Menus {
  import opened Basics
  import opened Entities
  import Outcome

  /** `ord('b')`: leaves a menu. */
  const KeyBack: int := 98

  /** One key in the upgrade menu: '1'..'5' buys +2 hp, +1 attack, +1
      defense, +1 speed or +2 max mana for one skill point, if there is
      one. Each point buys two units of hp or mana or one of the rest. */
  function Upgrade(s: Stats, key: int): (r: Stats)
    ensures r.skillPoints < s.skillPoints <==> KeyOne <= key <= KeyOne + 4 && s.skillPoints > 0
    ensures r.skillPoints == s.skillPoints || r.skillPoints == s.skillPoints - 1
    ensures r.skillPoints == s.skillPoints ==> r == s
    ensures 2 * (s.skillPoints - r.skillPoints)
         == (r.hp - s.hp) + 2 * (r.attack - s.attack) + 2 * (r.defense - s.defense)
            + 2 * (r.speed - s.speed) + (r.mana - s.mana)
    ensures r.hp >= s.hp && r.attack >= s.attack && r.defense >= s.defense && r.speed >= s.speed && r.mana >= s.mana
    ensures r == s.(hp := r.hp, attack := r.attack, defense := r.defense, speed := r.speed,
                    mana := r.mana, skillPoints := r.skillPoints)
    ensures Consistent(s) ==> Consistent(r)
    // which key buys which stat
    ensures s.skillPoints > 0 && key == KeyOne ==> r == s.(hp := s.hp + 2, skillPoints := s.skillPoints - 1)
    ensures s.skillPoints > 0 && key == KeyOne + 1 ==> r == s.(attack := s.attack + 1, skillPoints := s.skillPoints - 1)
    ensures s.skillPoints > 0 && key == KeyOne + 2 ==> r == s.(defense := s.defense + 1, skillPoints := s.skillPoints - 1)
    ensures s.skillPoints > 0 && key == KeyOne + 3 ==> r == s.(speed := s.speed + 1, skillPoints := s.skillPoints - 1)
    ensures s.skillPoints > 0 && key == KeyOne + 4 ==> r == s.(mana := s.mana + 2, skillPoints := s.skillPoints - 1)
  {
    if KeyOne <= key <= KeyOne + 4 && s.skillPoints > 0 then
      var bought :=
        if key == KeyOne then s.(hp := s.hp + 2)
        else if key == KeyOne + 1 then s.(attack := s.attack + 1)
        else if key == KeyOne + 2 then s.(defense := s.defense + 1)
        else if key == KeyOne + 3 then s.(speed := s.speed + 1)
        else s.(mana := s.mana + 2);
      bought.(skillPoints := bought.skillPoints - 1)
    else s
  }

  /** The upgrade menu over a run of keys, up to the first 'b'. Over the
      whole session the points spent pay exactly for the stats gained, and
      the balance never goes below zero. */
  function UpgradeSession(s: Stats, keys: seq<int>): (r: Stats)
    decreases |keys|
    ensures 0 <= s.skillPoints ==> 0 <= r.skillPoints <= s.skillPoints
    ensures 2 * (s.skillPoints - r.skillPoints)
         == (r.hp - s.hp) + 2 * (r.attack - s.attack) + 2 * (r.defense - s.defense)
            + 2 * (r.speed - s.speed) + (r.mana - s.mana)
    ensures r == s.(hp := r.hp, attack := r.attack, defense := r.defense, speed := r.speed,
                    mana := r.mana, skillPoints := r.skillPoints)
    ensures Consistent(s) ==> Consistent(r)
  {
    if |keys| == 0 || keys[0] == KeyBack then s
    else UpgradeSession(Upgrade(s, keys[0]), keys[1..])
  }

  /** One key in the inventory menu: a digit toggles wielding the item at
      that position. */
  function Wield(s: Stats, inventory: seq<Item>, key: int): (r: Stats)
    ensures r == s.(wieldedIndex := r.wieldedIndex)
    ensures KeyOne <= key <= KeyOne - 1 + Min(|inventory|, 9) ==>
      && 0 <= key - KeyOne < |inventory|
      && (r.wieldedIndex.None? <==> s.wieldedIndex == Some(key - KeyOne))
      && (r.wieldedIndex.Some? ==> r.wieldedIndex == Some(key - KeyOne))
    ensures !(KeyOne <= key <= KeyOne - 1 + Min(|inventory|, 9)) ==> r == s
  {
    if KeyOne <= key <= KeyOne - 1 + Min(|inventory|, 9) then
      var index := key - KeyOne;
      if s.wieldedIndex == Some(index) then s.(wieldedIndex := None)
      else s.(wieldedIndex := Some(index))
    else s
  }

  /** Pressing the same digit twice undoes the first press, unless the
      first press replaced a different item. */
  lemma WieldTwiceRestores(s: Stats, inventory: seq<Item>, key: int)
    requires s.wieldedIndex.None? || s.wieldedIndex == Some(key - KeyOne)
    ensures Wield(Wield(s, inventory, key), inventory, key) == s
  {
  }

  /** The menu only ever wields an item that exists, so a battle started
      after it finds the weapon: its damage is that of the wielded item. */
  lemma WieldedWeaponResolves(s: Stats, inventory: seq<Item>, key: int)
    requires s.wieldedIndex.None? || 0 <= s.wieldedIndex.value < |inventory|
    ensures var r := Wield(s, inventory, key);
      && (r.wieldedIndex.None? || 0 <= r.wieldedIndex.value < |inventory|)
      && Outcome.WeaponDamage(inventory, r.wieldedIndex)
         == Ok(if r.wieldedIndex.None? then 0 else inventory[r.wieldedIndex.value].damage)
  {
  }

  /** The sum of the first `n` weights. */
  function Prefix(monsters: seq<(string, real)>, n: nat): real
    requires n <= |monsters|
  {
    if n == 0 then 0.0 else Prefix(monsters, n - 1) + monsters[n - 1].1
  }

  /** The pick rule: index `i` is the first whose running total reaches
      `target`, or the last one when none does. */
  predicate Picks(monsters: seq<(string, real)>, target: real, i: int)
  {
    && 0 <= i < |monsters|
    && (forall j :: 1 <= j <= i ==> Prefix(monsters, j) < target)
    && (Prefix(monsters, i + 1) >= target || i == |monsters| - 1)
  }

  /** `pick_monster(monsters)` where `random.random()` drew `draw`. An
      empty list raises. */
  method PickMonster(monsters: seq<(string, real)>, draw: real) returns (r: Result<string>)
    ensures |monsters| == 0 ==> r == Err(IndexError)
    ensures |monsters| > 0 ==> r.Ok? && exists i :: Picks(monsters, draw * Prefix(monsters, |monsters|), i) && r.value == monsters[i].0
  {
    var target := draw * Prefix(monsters, |monsters|);
    var upto := 0.0;
    var i := 0;
    while i < |monsters|
      invariant 0 <= i <= |monsters|
      invariant upto == Prefix(monsters, i)
      invariant forall j :: 1 <= j <= i ==> Prefix(monsters, j) < target
    {
      if upto + monsters[i].1 >= target {
        assert Picks(monsters, target, i);
        return Ok(monsters[i].0);
      }
      upto := upto + monsters[i].1;
      i := i + 1;
    }
    if |monsters| == 0 {
      return Err(IndexError);
    }
    assert Picks(monsters, target, |monsters| - 1);
    return Ok(monsters[|monsters| - 1].0);
  }

  /** With non-negative weights and a draw in [0, 1) the pick is a weighted
      choice: the target falls in the picked monster's slice of the total,
      so the fall-back to the last entry only ever agrees with the rule. */
  lemma PickIsWeighted(monsters: seq<(string, real)>, draw: real, i: int)
    requires forall j :: 0 <= j < |monsters| ==> monsters[j].1 >= 0.0
    requires 0.0 <= draw < 1.0
    requires Picks(monsters, draw * Prefix(monsters, |monsters|), i)
    ensures var target := draw * Prefix(monsters, |monsters|);
      Prefix(monsters, i) <= target <= Prefix(monsters, i + 1)
  {
    var total := Prefix(monsters, |monsters|);
    var target := draw * total;
    assert 0.0 <= total by { PrefixMonotone(monsters, 0, |monsters|); }
    assert 0.0 <= target <= total by {
      MulNonNegative(draw, total);
      MulNonNegative(1.0 - draw, total);
      assert (1.0 - draw) * total == total - draw * total;
    }
    if i > 0 {
      assert Prefix(monsters, i) < target;
    }
  }

  /** The product of two non-negative reals is non-negative. */
  lemma MulNonNegative(a: real, b: real)
    requires 0.0 <= a && 0.0 <= b
    ensures 0.0 <= a * b
  {
  }

  /** Running totals of non-negative weights do not decrease. */
  lemma {:induction false} PrefixMonotone(monsters: seq<(string, real)>, m: nat, n: nat)
    requires m <= n <= |monsters|
    requires forall j :: 0 <= j < |monsters| ==> monsters[j].1 >= 0.0
    ensures Prefix(monsters, m) <= Prefix(monsters, n)
    decreases n - m
  {
    if m < n {
      PrefixMonotone(monsters, m, n - 1);
    }
  }
}

=== FILE: outcome.dfy ===
/** A whole encounter: spawn the monster, look up the weapon, run the
    battle loop over the keys, then settle victory or defeat. */
module Outcome {
  import opened Basics
  import opened Entities
  import opened Spawner
  import opened Combat
  import Progression
  import Quests

  /** The base experience of a species; unlisted names give 5. */
  function BaseXp(species: string): int
  {
    if species == "Slime" then 5
    else if species == "Goblin" then 10
    else if species == "Kobold" then 15
    else if species == "Orc" then 40
    else 5
  }

  /** The experience a victory gives: the base value of the name with every
      "Elite " removed, plus twice the level, doubled for an elite. */
  function VictoryXp(m: Monster): (r: int)
    ensures m.level >= 0 ==> r >= (if m.elite then 10 else 5)
  {
    var gain := BaseXp(DeleteAll(m.name, ElitePrefix)) + m.level * 2;
    if m.elite then gain * 2 else gain
  }

  /** For a spawned monster the victory experience is the species' base
      value plus twice the level, doubled exactly when the monster is elite:
      the lookup sees through the prefix the mutation added. */
  lemma VictoryXpOfSpawn(name: string, lo: int, hi: int, level: int, roll: real)
    requires lo <= level <= hi
    requires !Contains(name, ElitePrefix)
    ensures VictoryXp(CreateMonster(name, lo, hi, level, roll).value)
         == (BaseXp(name) + 2 * level) * (if roll < EliteChance then 2 else 1)
  {
    DeleteAllAbsent(name, ElitePrefix);
    DeleteAllPrefix(name, ElitePrefix);
  }

  /** None of the four species names contains the elite prefix. */
  lemma SpeciesNamesArePlain()
    ensures !Contains("Slime", ElitePrefix) && !Contains("Goblin", ElitePrefix)
    ensures !Contains("Kobold", ElitePrefix) && !Contains("Orc", ElitePrefix)
  {
    assert !StartsWith("Goblin", ElitePrefix) by { assert "Goblin"[0] != ElitePrefix[0]; }
    assert !StartsWith("Kobold", ElitePrefix) by { assert "Kobold"[0] != ElitePrefix[0]; }
  }

  /** The defeat penalty: `xp // 2` is lost, so the rounded-up half stays. */
  function LoseXp(s: Stats): (r: Stats)
    ensures s.xp >= 0 ==> 0 <= r.xp <= s.xp && r.xp == (s.xp + 1) / 2
    ensures r == s.(xp := r.xp)
    ensures Consistent(s) ==> Consistent(r)
  {
    s.(xp := s.xp - s.xp / 2)
  }

  /** `inventory[stats["wielded_index"]].damage`, or 0 when nothing is
      wielded; Python's negative indices count from the end. */
  function WeaponDamage(inventory: seq<Item>, wielded: Option<int>): (r: Result<int>)
    ensures wielded.None? ==> r == Ok(0)
    ensures wielded.Some? ==> (r.Ok? <==> -|inventory| <= wielded.value < |inventory|)
    ensures r.Err? ==> r.error == IndexError
    ensures wielded.Some? && 0 <= wielded.value < |inventory| ==> r == Ok(inventory[wielded.value].damage)
    ensures wielded.Some? && -|inventory| <= wielded.value < 0 ==> r == Ok(inventory[|inventory| + wielded.value].damage)
    ensures r.Ok? && wielded.Some? ==> exists i :: 0 <= i < |inventory| && r.value == inventory[i].damage
  {
    match wielded
    case None => Ok(0)
    case Some(i) =>
      if 0 <= i < |inventory| then Ok(inventory[i].damage)
      else if -|inventory| <= i < 0 then Ok(inventory[|inventory| + i].damage)
      else Err(IndexError)
  }

  /** How an encounter ended. `Undecided` means the keys ran out while both
      sides still stood. */
  datatype Ending = Won(xpGain: int, leveledUp: bool) | Lost(lostXp: int) | Undecided

  /** The stats and NPC table after an encounter, the monster fought and
      the last turn state. */
  datatype Report = Report(stats: Stats, npcs: map<Pos, Npc>, monster: Monster, turn: TurnState, ending: Ending)

  /** The code after the battle loop. `stats` already carries the mana the
      battle left. */
  function Conclude(stats: Stats, npcs: map<Pos, Npc>, m: Monster, t: TurnState): (r: Report)
    ensures r.turn == t && r.monster == m
    ensures t.playerHp > 0 ==> r.ending.Won?
    ensures r.ending.Won? ==>
      && r.ending.xpGain == VictoryXp(m)
      && Progression.GainXp(stats, VictoryXp(m)) == Progression.Gain(r.stats, r.ending.leveledUp)
      && r.npcs == Quests.KillProgress(npcs, m.name)
    ensures t.playerHp <= 0 ==>
      && r.ending == Lost(stats.xp / 2)
      && r.stats == LoseXp(stats) && r.npcs == npcs
  {
    if t.playerHp > 0 then
      var xp := VictoryXp(m);
      var g := Progression.GainXp(stats, xp);
      Report(g.stats, Quests.KillProgress(npcs, m.name), m, t, Won(xp, g.leveledUp))
    else
      Report(LoseXp(stats), npcs, m, t, Lost(stats.xp / 2))
  }

  /** `battle(...)` with its random draws (`level`, `roll`) and its input
      (`keys`, one per turn) as parameters. */
  function Battle(stats: Stats, inventory: seq<Item>, skills: seq<Skill>, npcs: map<Pos, Npc>,
                  name: string, lo: int, hi: int, level: int, roll: real, keys: seq<int>): (r: Result<Report>)
    requires lo <= hi ==> lo <= level <= hi
    ensures r.Err? <==> lo > hi || WeaponDamage(inventory, stats.wieldedIndex).Err?
    ensures r.Ok? ==> r.value.monster == CreateMonster(name, lo, hi, level, roll).value
    // the turns are those of the battle loop fed with `keys`, fought with
    // the wielded weapon and the spawned monster from the loop's start
    ensures r.Ok? ==>
      var enc := Encounter(stats, WeaponDamage(inventory, stats.wieldedIndex).value, skills, r.value.monster);
      && r.value.turn == Fight(enc, Start(enc), keys).turn
      && (Fight(enc, Start(enc), keys).OutOfInput? ==> r.value.ending.Undecided?)
    // the battle fights on a copy of the hp: the stored hp never changes
    ensures r.Ok? ==>
      var s := r.value.stats;
      && s.hp == stats.hp && s.attack == stats.attack && s.defense == stats.defense
      && s.speed == stats.speed && s.mana == stats.mana && s.gold == stats.gold
      && s.wieldedIndex == stats.wieldedIndex && s.classPath == stats.classPath
    ensures r.Ok? && !r.value.ending.Undecided? ==>
      r.value == Conclude(stats.(currentMana := r.value.turn.currentMana), npcs, r.value.monster, r.value.turn)
    ensures r.Ok? && r.value.ending.Won? ==> r.value.turn.playerHp > 0 && r.value.turn.monsterHp <= 0
    ensures r.Ok? && r.value.ending.Lost? ==>
      && r.value.turn.playerHp <= 0
      && (stats.hp > 0 || r.value.monster.hp > 0 ==> r.value.turn.monsterHp > 0)
    ensures r.Ok? && r.value.ending.Undecided? ==>
      && r.value.turn.playerHp > 0 && r.value.turn.monsterHp > 0
      && r.value.npcs == npcs && r.value.stats.xp == stats.xp
  {
    match CreateMonster(name, lo, hi, level, roll)
    case Err(e) => Err(e)
    case Ok(m) =>
      match WeaponDamage(inventory, stats.wieldedIndex)
      case Err(e) => Err(e)
      case Ok(w) =>
        var enc := Encounter(stats, w, skills, m);
        match Fight(enc, Start(enc), keys)
        case OutOfInput(t) => Ok(Report(stats.(currentMana := t.currentMana), npcs, m, t, Undecided))
        case Finished(t) => Ok(Conclude(stats.(currentMana := t.currentMana), npcs, m, t))
  }

  /** An encounter keeps the player's stats consistent and the quest table
      sound, for sane skills and a monster level that is not negative. */
  lemma BattleKeepsInvariants(stats: Stats, inventory: seq<Item>, skills: seq<Skill>, npcs: map<Pos, Npc>,
                              name: string, lo: int, hi: int, level: int, roll: real, keys: seq<int>)
    requires lo <= level <= hi && 0 <= level
    requires Consistent(stats) && SaneSkills(skills) && Quests.QuestsSound(npcs)
    requires Battle(stats, inventory, skills, npcs, name, lo, hi, level, roll, keys).Ok?
    ensures var r := Battle(stats, inventory, skills, npcs, name, lo, hi, level, roll, keys).value;
      Consistent(r.stats) && Quests.QuestsSound(r.npcs)
  {
    var m := CreateMonster(name, lo, hi, level, roll).value;
    var w := WeaponDamage(inventory, stats.wieldedIndex).value;
    var enc := Encounter(stats, w, skills, m);
    StartIsSound(enc);
    FightKeepsSound(enc, Start(enc), keys);
    var t := Fight(enc, Start(enc), keys).turn;
    var s := stats.(currentMana := t.currentMana);
    assert Consistent(s);
    if t.playerHp > 0 && t.monsterHp <= 0 {
      assert VictoryXp(m) >= 0;
      Progression.GainXpKeepsConsistent(s, VictoryXp(m));
      Quests.KillProgressKeepsInvariants(npcs, m.name);
    }
  }

  /** The fight of the scenario below: three unanswered prompts, three
      plain attacks for 5, and the Slime's two hits for 4 each. */
  lemma SlimeFight(enc: Encounter)
    requires enc.stats == NewGame().0.(wieldedIndex := Some(0))
    requires enc.weaponDamage == 3 && enc.skills == []
    requires enc.monster == Monster("Slime", 1, 15, 5, 1, 3, false)
    ensures Fight(enc, Start(enc), [-1, -1, -1]).Finished?
    ensures Fight(enc, Start(enc), [-1, -1, -1]).turn.monsterHp == 0
    ensures Fight(enc, Start(enc), [-1, -1, -1]).turn.playerHp == 12
  {
    var s0 := Start(enc);
    assert s0.monsterHp == 15 && s0.playerHp == 20 && s0.lastAction == Attack && s0.empoweredTurns == 0;
    var s1 := Step(enc, s0, -1);
    StepPlainAttack(enc, s0, -1);
    assert s1.monsterHp == 10 && s1.playerHp == 16;
    var s2 := Step(enc, s1, -1);
    StepPlainAttack(enc, s1, -1);
    assert s2.monsterHp == 5 && s2.playerHp == 12;
    var s3 := Step(enc, s2, -1);
    StepPlainAttack(enc, s2, -1);
    assert s3.monsterHp == 0 && s3.playerHp == 12;
    assert [-1, -1, -1][1..] == [-1, -1] && [-1, -1][1..] == [-1] && [-1][1..] == [];
  }

  /** A level-1 new-game player (attack 5) wielding the starter sword
      (damage 3) against a level-1 Slime (hp 15, defense 3) hits for 5 and
      wins on the third turn without pressing a key, taking 4 per hit, and
      gains 5 + 2 experience. */
  lemma SlimeScenario()
    ensures var r := Battle(NewGame().0.(wieldedIndex := Some(0)), NewGame().1, [], Quests.NpcTable(),
                            "Slime", 1, 3, 1, 0.5, [-1, -1, -1]);
      && r.Ok? && r.value.ending == Won(7, false)
      && r.value.turn.monsterHp == 0 && r.value.turn.playerHp == 12
      && r.value.stats.xp == 7
  {
    var stats := NewGame().0.(wieldedIndex := Some(0));
    var m := CreateMonster("Slime", 1, 3, 1, 0.5).value;
    assert m == Monster("Slime", 1, 15, 5, 1, 3, false);
    assert WeaponDamage(NewGame().1, stats.wieldedIndex) == Ok(3);
    var enc := Encounter(stats, 3, [], m);
    SlimeFight(enc);
    SpeciesNamesArePlain();
    DeleteAllAbsent("Slime", ElitePrefix);
    assert VictoryXp(m) == 7;
  }
}

=== FILE: progression.dfy ===
/** `gain_xp`: experience turns into levels, each level grants five skill
    points and refills the mana pool. */
module Progression {
  import opened Entities

  /** The experience a level-up pass consumes going from level `lo` to
      level `hi`: the thresholds 10*lo, 10*(lo+1), ..., 10*(hi-1). */
  function ThresholdSum(lo: int, hi: int): int
    requires lo <= hi
    decreases hi - lo
  {
    if lo == hi then 0 else 10 * lo + ThresholdSum(lo + 1, hi)
  }

  /** What `gain_xp` leaves behind: the updated stats and its return value. */
  datatype Gain = Gain(stats: Stats, leveledUp: bool)

  /** The level-up loop of `gain_xp` as a recursion; `leveled` is the flag
      the loop carries. It also terminates from a level below one, where the
      threshold is not positive and each pass only raises the level. */
  function Drain(s: Stats, leveled: bool): (r: Gain)
    decreases if s.level < 1 then 1 - s.level else 0, s.xp
    ensures r.stats.xp < r.stats.level * 10
    ensures r.stats.level >= s.level
    ensures r.stats.xp + ThresholdSum(s.level, r.stats.level) == s.xp
    ensures r.stats.skillPoints == s.skillPoints + 5 * (r.stats.level - s.level)
    ensures r.stats.currentMana == if r.stats.level > s.level then s.mana else s.currentMana
    ensures r.stats.level > s.level ==> r.stats.xp >= 0
    ensures r.leveledUp <==> leveled || r.stats.level > s.level
    ensures r.stats == s.(xp := r.stats.xp, level := r.stats.level,
                          skillPoints := r.stats.skillPoints, currentMana := r.stats.currentMana)
  {
    if s.xp >= s.level * 10 then
      Drain(s.(xp := s.xp - s.level * 10, level := s.level + 1,
               skillPoints := s.skillPoints + 5, currentMana := s.mana), true)
    else
      Gain(s, leveled)
  }

  /** `gain_xp(stats, amount)`. */
  function GainXp(s: Stats, amount: int): (r: Gain)
    ensures r.stats.xp < r.stats.level * 10
    ensures r.stats.level >= s.level
    ensures r.stats.xp + ThresholdSum(s.level, r.stats.level) == s.xp + amount
    ensures r.stats.skillPoints == s.skillPoints + 5 * (r.stats.level - s.level)
    ensures r.stats.currentMana == if r.stats.level > s.level then s.mana else s.currentMana
    ensures r.stats.level > s.level ==> r.stats.xp >= 0
    ensures r.leveledUp <==> r.stats.level > s.level
    ensures r.stats.hp == s.hp && r.stats.attack == s.attack && r.stats.defense == s.defense
         && r.stats.speed == s.speed && r.stats.mana == s.mana && r.stats.gold == s.gold
         && r.stats.wieldedIndex == s.wieldedIndex && r.stats.classPath == s.classPath
  {
    Drain(s.(xp := s.xp + amount), false)
  }

  /** `gain_xp` keeps the stats invariant for any non-negative amount. */
  lemma GainXpKeepsConsistent(s: Stats, amount: int)
    requires Consistent(s)
    requires amount >= 0
    ensures Consistent(GainXp(s, amount).stats)
  {
  }

  /** `gain_xp` with no experience on a consistent record changes nothing. */
  lemma GainNothingIsIdle(s: Stats)
    requires Consistent(s)
    ensures GainXp(s, 0) == Gain(s, false)
  {
  }

  /** The loop of `gain_xp` as written, computing the same thing as the
      recursion. */
  method GainXpLoop(s: Stats, amount: int) returns (r: Stats, leveledUp: bool)
    ensures Gain(r, leveledUp) == GainXp(s, amount)
    ensures r.xp < r.level * 10
  {
    r := s.(xp := s.xp + amount);
    leveledUp := false;
    while r.xp >= r.level * 10
      invariant Drain(r, leveledUp) == GainXp(s, amount)
      decreases if r.level < 1 then 1 - r.level else 0, r.xp
    {
      r := r.(xp := r.xp - r.level * 10);
      r := r.(level := r.level + 1);
      r := r.(skillPoints := r.skillPoints + 5);
      r := r.(currentMana := r.mana);
      leveledUp := true;
    }
  }
}

=== FILE: quests.dfy ===
/** The quest engine: kill progress after a victory, and what happens when
    the player stands on an NPC's tile. The NPC table is an explicit map
    passed in and returned. */
module Quests {
  import opened Basics
  import opened Entities
  import Progression
  import opened Spawner

  /** `ord('y')`: accepts a class quest. */
  const KeyYes: int := 121

  /** What each NPC of the starting table says. */
  const YoungsterLine: string :=
    "A youngster tells you, 'Slimes are tricky to catch, so I guess I'll play with their corpses.'"
  const OldManLine: string :=
    "A frail old man tells you, 'If you give me 2 goblin heads, I will give you a reward.'"
  const FarmerLine: string :=
    "An agitated farmer paces back in forth, muttering, 'Those disgusting orcs...' "
  const WizardLine: string :=
    "A wizened figure stands, staff in hand: 'You want to follow the path of magic?' "
  const VeteranLine: string :=
    "A rugged veteran sits, hair in the wind, 'Fight like a warrior.' "
  const PriestLine: string :=
    "A kind old man gazes at you warmly, 'May He be with you.' "
  const MerchantLine: string :=
    "A merchant shows off their sales"

  /** The NPC table the game starts with: seven NPCs, each with a quest and
      none with its reward flag set; the merchant's is the gold quest. */
  function NpcTable(): (r: map<Pos, Npc>)
    ensures r.Keys == {(0, 1), (10, 9), (-5, -4), (-1, 0), (1, 0), (0, -1), (0, 4)}
    ensures forall p :: p in r ==> r[p].quest.Some? && !r[p].rewardGiven
    ensures r[(0, 4)].quest == Some(GoldQuest)
  {
    map[
      (0, 1) := Npc(YoungsterLine, Some(KillQuest("Slime", 3, 0, false, Reward(20, 0), false)), false),
      (10, 9) := Npc(OldManLine, Some(KillQuest("Goblin", 2, 0, false, Reward(40, 0), false)), false),
      (-5, -4) := Npc(FarmerLine, Some(KillQuest("Orc", 1, 0, false, Reward(100, 1), false)), false),
      (-1, 0) := Npc(WizardLine, Some(ClassQuest("Mage", false, false)), false),
      (1, 0) := Npc(VeteranLine, Some(ClassQuest("Swordsman", false, false)), false),
      (0, -1) := Npc(PriestLine, Some(ClassQuest("Cleric", false, false)), false),
      (0, 4) := Npc(MerchantLine, Some(GoldQuest), false)
    ]
  }

  /** Every kill quest of the table keeps its bookkeeping straight. */
  predicate QuestsSound(npcs: map<Pos, Npc>)
  {
    forall p :: p in npcs && npcs[p].quest.Some? ==> KillQuestSound(npcs[p].quest.value)
  }

  /** Every kill quest's reward is non-negative. */
  predicate RewardsNonNegative(npcs: map<Pos, Npc>)
  {
    forall p :: p in npcs && npcs[p].quest.Some? && npcs[p].quest.value.KillQuest? ==>
      npcs[p].quest.value.reward.xp >= 0 && npcs[p].quest.value.reward.skillPoints >= 0
  }

  /** No kill quest carries the `reward_given` flag the NPC interaction
      reads. */
  predicate QuestFlagsClear(npcs: map<Pos, Npc>)
  {
    forall p :: p in npcs && npcs[p].quest.Some? && npcs[p].quest.value.KillQuest? ==>
      !npcs[p].quest.value.rewardGiven
  }

  /** The starting table is sound: its kill quests have positive counts,
      no progress, no completion, non-negative rewards and no quest-level
      flag, and no class quest is accepted yet. */
  lemma InitialTableIsSound()
    ensures QuestsSound(NpcTable()) && RewardsNonNegative(NpcTable()) && QuestFlagsClear(NpcTable())
    ensures forall p :: p in NpcTable() && NpcTable()[p].quest.Some? && NpcTable()[p].quest.value.KillQuest? ==>
      NpcTable()[p].quest.value.progress == 0 && !NpcTable()[p].quest.value.completed
    ensures forall p :: p in NpcTable() && NpcTable()[p].quest.Some? && NpcTable()[p].quest.value.ClassQuest? ==>
      !NpcTable()[p].quest.value.accepted
  {
  }

  /** A kill of the monster called `killed`, seen by one quest: only an
      incomplete kill quest whose target is exactly that name advances, by
      one, and completes once its count is reached. */
  function AdvanceQuest(q: Quest, killed: string): (r: Quest)
    ensures r != q <==> q.KillQuest? && !q.completed && q.target == killed
    ensures r != q ==>
      && q.KillQuest? && r.KillQuest? && r.progress == q.progress + 1
      && (r.completed <==> r.progress >= q.count)
      && r == q.(progress := r.progress, completed := r.completed)
    ensures KillQuestSound(q) ==> KillQuestSound(r)
  {
    if q.KillQuest? && !q.completed && q.target == killed then
      var p := q.progress + 1;
      if p >= q.count then q.(progress := p, completed := true) else q.(progress := p)
    else q
  }

  /** The quest loop after a victory over the monster called `killed`. */
  function KillProgress(npcs: map<Pos, Npc>, killed: string): (r: map<Pos, Npc>)
    ensures r.Keys == npcs.Keys
    ensures forall p :: p in npcs ==>
      && r[p].dialogue == npcs[p].dialogue && r[p].rewardGiven == npcs[p].rewardGiven
      && r[p].quest.Some? == npcs[p].quest.Some?
      && (npcs[p].quest.Some? ==> r[p].quest.value == AdvanceQuest(npcs[p].quest.value, killed))
  {
    map p | p in npcs :: npcs[p].(quest := if npcs[p].quest.Some? then Some(AdvanceQuest(npcs[p].quest.value, killed)) else None)
  }

  /** Kill progress keeps every quest's bookkeeping, every reward and the
      flags the interaction reads. */
  lemma KillProgressKeepsInvariants(npcs: map<Pos, Npc>, killed: string)
    ensures QuestsSound(npcs) ==> QuestsSound(KillProgress(npcs, killed))
    ensures RewardsNonNegative(npcs) ==> RewardsNonNegative(KillProgress(npcs, killed))
    ensures QuestFlagsClear(npcs) ==> QuestFlagsClear(KillProgress(npcs, killed))
  {
  }

  /** A completed kill quest is frozen: further kills leave it as it is. */
  lemma CompletedQuestFrozen(npcs: map<Pos, Npc>, killed: string, p: Pos)
    requires p in npcs && npcs[p].quest.Some? && npcs[p].quest.value.KillQuest?
    requires npcs[p].quest.value.completed
    ensures KillProgress(npcs, killed)[p] == npcs[p]
  {
  }

  /** Kill quests match the monster's full name, so an elite kill (its name
      carries the "Elite " prefix) advances no quest whose target lacks
      that prefix -- none in the game's table has it. */
  lemma EliteKillsNeverCount(npcs: map<Pos, Npc>, species: string)
    requires forall p :: p in npcs && npcs[p].quest.Some? && npcs[p].quest.value.KillQuest? ==>
      !StartsWith(npcs[p].quest.value.target, ElitePrefix)
    ensures KillProgress(npcs, ElitePrefix + species) == npcs
  {
    var r := KillProgress(npcs, ElitePrefix + species);
    forall p | p in npcs
      ensures r[p] == npcs[p]
    {
      if npcs[p].quest.Some? && npcs[p].quest.value.KillQuest? {
        assert StartsWith(ElitePrefix + species, ElitePrefix);
      }
    }
  }

  /** The table after an NPC visit. */
  datatype World = World(stats: Stats, npcs: map<Pos, Npc>)

  /** An NPC that hands out a reward on this visit. */
  predicate PaysReward(npcs: map<Pos, Npc>, pos: Pos)
  {
    && pos in npcs && npcs[pos].quest.Some? && npcs[pos].quest.value.KillQuest?
    && npcs[pos].quest.value.completed && !npcs[pos].quest.value.rewardGiven
  }

  /** An NPC whose class is taken on this visit. */
  predicate AdoptsClass(stats: Stats, npcs: map<Pos, Npc>, pos: Pos, key: int)
  {
    && pos in npcs && npcs[pos].quest.Some? && npcs[pos].quest.value.ClassQuest?
    && stats.classPath.None? && !npcs[pos].quest.value.accepted && key == KeyYes
  }

  /** The NPC block of the main loop for the player standing on `pos`;
      `key` answers the class quest's prompt. A gold quest has no
      `completed` entry, and reading it raises. */
  function Visit(stats: Stats, npcs: map<Pos, Npc>, pos: Pos, key: int): (r: Result<World>)
    ensures r.Err? <==> pos in npcs && npcs[pos].quest == Some(GoldQuest)
    ensures r.Err? ==> r.error == KeyError("completed")
    ensures r.Ok? ==> r.value.npcs.Keys == npcs.Keys
    ensures r.Ok? ==> forall p :: p in npcs && p != pos ==> r.value.npcs[p] == npcs[p]
    // the class path changes only from unset to the quest's class, on 'y'
    ensures r.Ok? ==> (r.value.stats.classPath != stats.classPath <==> AdoptsClass(stats, npcs, pos, key))
    ensures AdoptsClass(stats, npcs, pos, key) ==>
      && r.value.stats == stats.(classPath := Some(npcs[pos].quest.value.className))
      && r.value.npcs[pos].quest == Some(npcs[pos].quest.value.(accepted := true))
    // a completed kill quest pays its reward through gain_xp and starts over
    ensures PaysReward(npcs, pos) ==>
      var q := npcs[pos].quest.value;
      var s := r.value.stats;
      && s.level >= stats.level
      && s.xp + Progression.ThresholdSum(stats.level, s.level) == stats.xp + q.reward.xp
      && s.skillPoints == stats.skillPoints + q.reward.skillPoints + 5 * (s.level - stats.level)
      && (s.level > stats.level ==> s.xp >= 0)
      && s.xp < s.level * 10
      && s.currentMana == (if s.level > stats.level then stats.mana else stats.currentMana)
      && s == stats.(xp := s.xp, level := s.level, skillPoints := s.skillPoints, currentMana := s.currentMana)
      && r.value.npcs[pos] == npcs[pos].(rewardGiven := true, quest := Some(q.(completed := false, progress := 0)))
    // anything else changes nothing, an incomplete kill quest included
    ensures r.Ok? && !PaysReward(npcs, pos) && !AdoptsClass(stats, npcs, pos, key) ==> r.value == World(stats, npcs)
  {
    if pos !in npcs || npcs[pos].quest.None? then Ok(World(stats, npcs))
    else
      var npc := npcs[pos];
      var q := npc.quest.value;
      match q
      case ClassQuest(className, accepted, _) =>
        if stats.classPath.None? && !accepted && key == KeyYes then
          Ok(World(stats.(classPath := Some(className)), npcs[pos := npc.(quest := Some(q.(accepted := true)))]))
        else Ok(World(stats, npcs))
      case KillQuest(_, _, _, completed, reward, rewardGiven) =>
        if completed && !rewardGiven then
          var paid := stats.(xp := stats.xp + reward.xp, skillPoints := stats.skillPoints + reward.skillPoints);
          var reset := npc.(rewardGiven := true, quest := Some(q.(completed := false, progress := 0)));
          Ok(World(Progression.GainXp(paid, 0).stats, npcs[pos := reset]))
        else Ok(World(stats, npcs))
      case GoldQuest => Err(KeyError("completed"))
  }

  /** A visit keeps the player's stats and the quest table consistent. */
  lemma VisitKeepsInvariants(stats: Stats, npcs: map<Pos, Npc>, pos: Pos, key: int)
    requires Consistent(stats) && QuestsSound(npcs) && RewardsNonNegative(npcs)
    requires Visit(stats, npcs, pos, key).Ok?
    ensures var w := Visit(stats, npcs, pos, key).value;
      Consistent(w.stats) && QuestsSound(w.npcs) && RewardsNonNegative(w.npcs)
  {
    if PaysReward(npcs, pos) {
      var q := npcs[pos].quest.value;
      var paid := stats.(xp := stats.xp + q.reward.xp, skillPoints := stats.skillPoints + q.reward.skillPoints);
      Progression.GainXpKeepsConsistent(paid.(xp := 0), paid.xp);
      assert Progression.GainXp(paid.(xp := 0), paid.xp) == Progression.GainXp(paid, 0);
    }
  }

  /** The `reward_given` guard never fires: the interaction writes the flag
      on the NPC, but reads it from the quest, where nothing writes it. */
  lemma RewardGuardNeverFires(stats: Stats, npcs: map<Pos, Npc>, pos: Pos, key: int, killed: string)
    requires QuestFlagsClear(npcs)
    ensures Visit(stats, npcs, pos, key).Ok? ==> QuestFlagsClear(Visit(stats, npcs, pos, key).value.npcs)
    ensures QuestFlagsClear(KillProgress(npcs, killed))
    ensures PaysReward(npcs, pos) <==>
      pos in npcs && npcs[pos].quest.Some? && npcs[pos].quest.value.KillQuest? && npcs[pos].quest.value.completed
  {
  }

  /** A reward is paid once per completion: straight after a paying visit
      the quest is incomplete again, so a second visit changes nothing. */
  lemma RewardOncePerCompletion(stats: Stats, npcs: map<Pos, Npc>, pos: Pos, key1: int, key2: int)
    requires PaysReward(npcs, pos)
    ensures var w := Visit(stats, npcs, pos, key1).value;
      Visit(w.stats, w.npcs, pos, key2) == Ok(w)
  {
  }

  /** The merchant's gold quest in the game's table makes the visit raise. */
  lemma MerchantVisitRaises(stats: Stats, key: int)
    ensures Visit(stats, NpcTable(), (0, 4), key) == Err(KeyError("completed"))
  {
  }

  /** A run of NPC visits, one (tile, key) pair each, stopping at the first
      one that raises. Once a class path is chosen no visit changes it. */
  function VisitAll(stats: Stats, npcs: map<Pos, Npc>, visits: seq<(Pos, int)>): (r: Result<World>)
    decreases |visits|
    ensures r.Ok? ==> r.value.npcs.Keys == npcs.Keys
    ensures r.Ok? && stats.classPath.Some? ==> r.value.stats.classPath == stats.classPath
  {
    if |visits| == 0 then Ok(World(stats, npcs))
    else match Visit(stats, npcs, visits[0].0, visits[0].1)
      case Err(e) => Err(e)
      case Ok(w) => VisitAll(w.stats, w.npcs, visits[1..])
  }
}

=== FILE: skillbook.dfy ===
/** The fixed skill list of each class path, rebuilt from `class_path` on
    every pass of the main loop, and what those skills can do in battle. */
module SkillBook {
  import opened Basics
  import opened Entities
  import opened Combat

  /** An active skill as the class lists build it: no custom name (so it
      is displayed under its own name), level 1 required. */
  function ClassSkill(name: string, description: string, manaCost: int, staminaCost: int, cooldown: int,
                      requiredClass: string, rank: string, effect: Effect, duration: int, power: Option<real>): Skill
  {
    Skill(name, name, description, "active", manaCost, staminaCost, cooldown, Some(requiredClass),
          rank, false, 1, effect, duration, power)
  }

  /** The description of each shipped skill. */
  const PowerStrikeText: string := "Empowers your next attack to do 2.5x the damage."
  const QuickJabText: string := "A fast, weak jab drops the opposing parties defense by 0.1."
  const FireballText: string := "A ball of fire."
  const ArcaneBoltText: string := "A bolt of arcane energy."
  const HealText: string := "A pulse of holy light heals allies."
  const PurifyText: string := "A pulse of holy light weakens enemies."

  /** The skills of a class path; none without one. */
  function ClassSkills(classPath: Option<string>): (r: seq<Skill>)
    ensures |r| == (if classPath in {Some("Swordsman"), Some("Mage"), Some("Cleric")} then 2 else 0)
    ensures forall i :: 0 <= i < |r| ==>
      && r[i].requiredClass == classPath && r[i].levelRequired == 1 && r[i].customName == r[i].name
      && r[i].cooldown > 0 && r[i].manaCost >= 0
    ensures forall i, j :: 0 <= i < j < |r| ==> r[i].name != r[j].name
    ensures SaneSkills(r)
  {
    if classPath == Some("Swordsman") then
      [ClassSkill("Power Strike", PowerStrikeText, 0, 3, 5,
                  "Swordsman", "C", DamageBuff, 1, Some(2.5)),
       ClassSkill("Quick Jab", QuickJabText, 0, 2, 3,
                  "Swordsman", "D", MonsDefenseDebuff, 2, Some(0.8))]
    else if classPath == Some("Mage") then
      [ClassSkill("Fireball", FireballText, 8, 1, 7, "Mage", "C", DamageBuff, 2, Some(1.5)),
       ClassSkill("Arcane Bolt", ArcaneBoltText, 4, 1, 6, "Mage", "D", DamageBuff, 1, Some(1.6))]
    else if classPath == Some("Cleric") then
      [ClassSkill("Heal", HealText, 10, 1, 2, "Cleric", "C", HpBuff, 1, None),
       ClassSkill("Purify", PurifyText, 8, 1, 5, "Cleric", "D", DamageBuff, 1, Some(1.2))]
    else []
  }

  /** No shipped skill reaches the name-based direct-damage branch: every
      one carries one of the three recognised effects, and Fireball and
      Arcane Bolt in particular are damage buffs. */
  lemma ShippedSkillsHaveEffects(classPath: Option<string>)
    ensures forall i :: 0 <= i < |ClassSkills(classPath)| ==> ClassSkills(classPath)[i].effect != NoEffect
    ensures forall i :: 0 <= i < |ClassSkills(classPath)| && ClassSkills(classPath)[i].name in {"Fireball", "Arcane Bolt"} ==>
      ClassSkills(classPath)[i].effect == DamageBuff
  {
  }

  /** Hence a shipped skill never damages the monster on the turn it is
      cast: the Fireball and Arcane Bolt damage branches are dead. */
  lemma ShippedSkillsDealNoDamage(e: Encounter, s: TurnState, classPath: Option<string>)
    requires e.skills == ClassSkills(classPath)
    requires Classify(e, s).Cast?
    ensures Resolve(e, s).monsterHp == s.monsterHp
  {
    var sk := Classify(e, s).skill;
    ShippedSkillsHaveEffects(classPath);
    var i :| 0 <= i < |e.skills| && e.skills[i] == sk;
    assert sk.effect != NoEffect;
  }

  /** A Mage with 8 mana (of at least 8) pressing '1' casts Fireball: the
      8 mana are spent and one comes back, the cooldown of 7 has already
      ticked to 6, the monster is untouched and the next plain attack is
      multiplied by 1.5. */
  lemma FireballScenario(e: Encounter, s: TurnState)
    requires e.skills == ClassSkills(Some("Mage"))
    requires e.stats.level >= 1 && e.stats.mana >= 8
    requires s.currentMana == 8 && s.cooldowns == map["Fireball" := 0, "Arcane Bolt" := 0]
    ensures var r := Step(e, s, KeyOne);
      && r.currentMana == 1
      && r.cooldowns == map["Fireball" := 6, "Arcane Bolt" := 0]
      && r.monsterHp == s.monsterHp
      && r.empoweredTurns == 1 && r.empoweredMult == 1.5
  {
    var fireball := e.skills[0];
    assert SelectAction(e.skills, s.lastAction, KeyOne) == "Fireball";
    var a := s.(lastAction := "Fireball");
    assert FindSkill(e.skills, "Fireball") == Some(fireball);
    assert Classify(e, a) == Cast(fireball);
    StepBuff(e, s, KeyOne, fireball);
    StepCast(e, s, KeyOne);
    assert TickCooldowns(map["Fireball" := 7, "Arcane Bolt" := 0]) == map["Fireball" := 6, "Arcane Bolt" := 0];
  }

  /** A new-game Swordsman (attack 5) wielding the starter sword (damage 3)
      against a level-1 Slime (hp 15, attack 5, defense 3) presses '1' and
      then lets the timer run out: Power Strike deals nothing on its turn,
      the timeout repeats the plain attack, which hits for int(5 * 2.5) = 12
      instead of 5, and the Slime is left with 3 hp. The Slime hits back
      for 4 each turn. */
  lemma PowerStrikeScenario(e: Encounter)
    requires e.stats == NewGame().0.(wieldedIndex := Some(0), classPath := Some("Swordsman"))
    requires e.weaponDamage == 3 && e.skills == ClassSkills(Some("Swordsman"))
    requires e.monster == Monster("Slime", 1, 15, 5, 1, 3, false)
    ensures Fight(e, Start(e), [KeyOne, -1]).OutOfInput?
    ensures Fight(e, Start(e), [KeyOne, -1]).turn.monsterHp == 3
    ensures Fight(e, Start(e), [KeyOne, -1]).turn.playerHp == 12
  {
    var s0 := Start(e);
    var strike := e.skills[0];
    assert SelectAction(e.skills, s0.lastAction, KeyOne) == "Power Strike";
    assert FindSkill(e.skills, "Power Strike") == Some(strike);
    assert Classify(e, s0.(lastAction := "Power Strike")) == Cast(strike);
    var s1 := Step(e, s0, KeyOne);
    StepBuff(e, s0, KeyOne, strike);
    assert s1.monsterHp == 15 && s1.playerHp == 16 && s1.monsterDefense == 3;
    var s2 := Step(e, s1, -1);
    StrikeWhileEmpowered(e, s1, -1, 2.5);
    assert AttackDamage(5, 2.5) == 12;
    assert s2.monsterHp == 3 && s2.playerHp == 12;
    assert [KeyOne, -1][1..] == [-1] && [-1][1..] == [];
  }
}

=== FILE: spawner.dfy ===
/** Monster construction: species base stats, level scaling and the rare
    elite mutation. The two random draws of the game (the level and the
    elite roll) are parameters. */
module Spawner {
  import opened Basics
  import opened Entities

  /** Base stats of a species, before level scaling. */
  datatype Species = Species(baseHp: int, baseAttack: int, baseSpeed: int, baseDefense: int)

  /** A roll of `random.random()` below this makes the monster elite. */
  const EliteChance: real := 0.0001

  const ElitePrefix: string := "Elite "

  /** The species table; any other name gets the generic stats. */
  function SpeciesOf(name: string): Species
  {
    if name == "Slime" then Species(10, 3, 1, 1)
    else if name == "Goblin" then Species(30, 6, 10, 3)
    else if name == "Kobold" then Species(35, 7, 5, 4)
    else if name == "Orc" then Species(100, 30, 2, 6)
    else Species(15, 5, 2, 2)
  }

  /** `Monster.__init__`: base stats plus the level bonuses. Each level
      adds 5 hp, 2 attack and 2 defense; speed rises by one every second
      level. A freshly built monster is never elite. */
  function Build(name: string, sp: Species, level: int): (r: Monster)
    ensures r.name == name && r.level == level && !r.elite
    ensures 2 * (r.hp - sp.baseHp) == 5 * (r.attack - sp.baseAttack)
    ensures r.defense - sp.baseDefense == r.attack - sp.baseAttack == 2 * level
    ensures 2 * (r.speed - sp.baseSpeed) <= level < 2 * (r.speed - sp.baseSpeed) + 2
  {
    Monster(name, level,
            sp.baseHp + level * 5,
            sp.baseAttack + level * 2,
            sp.baseSpeed + level / 2,
            sp.baseDefense + level * 2,
            false)
  }

  /** The elite mutation: hp, attack and defense doubled, speed kept. */
  function Elite(m: Monster): Monster
  {
    m.(name := ElitePrefix + m.name, hp := m.hp * 2, attack := m.attack * 2,
       defense := m.defense * 2, elite := true)
  }

  /** `create_monster(name, (lo, hi))` where `random.randint(lo, hi)` drew
      `level` and `random.random()` drew `roll`. An empty range raises. */
  function CreateMonster(name: string, lo: int, hi: int, level: int, roll: real): (r: Result<Monster>)
    requires lo <= hi ==> lo <= level <= hi
    ensures r.Err? <==> lo > hi
    ensures r.Err? ==> r.error == ValueError
    ensures r.Ok? ==>
      var m := r.value;
      var sp := SpeciesOf(name);
      var k := if roll < EliteChance then 2 else 1;
      && lo <= m.level == level <= hi
      && m.hp == k * (sp.baseHp + 5 * level)
      && m.attack == k * (sp.baseAttack + 2 * level)
      && m.defense == k * (sp.baseDefense + 2 * level)
      && m.speed == sp.baseSpeed + level / 2
      && (m.elite <==> roll < EliteChance)
      && m.name == (if m.elite then ElitePrefix + name else name)
  {
    if lo > hi then Err(ValueError)
    else
      var m := Build(name, SpeciesOf(name), level);
      if roll < EliteChance then Ok(Elite(m)) else Ok(m)
  }

  /** Two spawns of one species at one level differ only by the mutation:
      the elite one has twice the hp, attack and defense, the same speed
      and level, and the prefixed name. */
  lemma EliteDoublesPlain(name: string, lo: int, hi: int, level: int, eliteRoll: real, plainRoll: real)
    requires lo <= level <= hi
    requires eliteRoll < EliteChance <= plainRoll
    ensures
      var e := CreateMonster(name, lo, hi, level, eliteRoll).value;
      var p := CreateMonster(name, lo, hi, level, plainRoll).value;
      && e.hp == 2 * p.hp && e.attack == 2 * p.attack && e.defense == 2 * p.defense
      && e.speed == p.speed && e.level == p.level
      && e.name == ElitePrefix + p.name && e.elite && !p.elite
  {
  }

  /** A name the species table does not list is spawned with the generic
      base stats (15, 5, 2, 2). */
  lemma UnknownSpeciesIsGeneric(name: string, level: int, roll: real)
    requires name !in {"Slime", "Goblin", "Kobold", "Orc"}
    requires EliteChance <= roll
    ensures CreateMonster(name, level, level, level, roll)
         == Ok(Monster(name, level, 15 + 5 * level, 5 + 2 * level, 2 + level / 2, 2 + 2 * level, false))
  {
  }
}
